=== FILE: README.md ===
# Tennis scrollytelling: a Dafny model of its core logic

This project models the logic of a tennis-rankings storytelling site. It has four parts.

- **The page controller.** This is `RankingTimeline` in `tennis-scrollytelling/js/scrollytelling.js`. It acquires the timeline through a chain of fallbacks: the monthly file, then the weekly file, then the legacy weekly rankings (normalised to the timepoint shape), then two built-in sample timepoints. It places one marker per decade and widens each marker with the years that have passed since it. It selects the top ten rankings and the pie slices, with an "Others" slice over the eighth leader and beyond. Scroll and drag events move the current index.
- **The flag downloader** (`download_flags.py`). It collects the country codes of the player list and maps tennis codes to ISO codes. For each code in sorted order it tries six flag sources until one gives a body of at least 100 bytes. `main` is modelled in two parts. `DownloadAll` loads and sorts the codes. `DownloadInOrder` is the loop over them. It receives the mapping table that `main` builds once before the loop. It also receives `FlagSources`, the function from an ISO code to its six candidate URLs. `DownloadFlag` receives that list for one code.
- **The face cropper** (`crop_photos.py`). This part covers the integer geometry of the expanded face box and of the centred square cut from it, the name of the cropped file, and the batch tally.
- **The photo downloader** (`image_loader.py`). This part covers:
  - the required fields of a player record;
  - the `<player_id>.jpg` file name;
  - the Wikimedia Commons address of a Wikidata image;
  - the order in which the image sources are tried;
  - the retry loop with exponential back-off;
  - the batch tally.

The model replaces the outside world with values:

- every fetch and HTTP request is a function from its address to an outcome;
- a directory is the set of file names it holds;
- the page's drawing is a ghost log of effects (`Timeline.Effect`);
- the photo downloader's methods return the requests they make, in order.

Files:

| file | module | models |
|---|---|---|
| `common.dfy` | `Common` | `Option`, the three-counter `Tally`, `Verdict` and `Progress` of the batch loops |
| `text.dfy` | `Text` | ASCII upper/lower case, prefix/suffix tests, Python string order, `str(int)`, `str.replace` on one character, `str.rfind` |
| `timeline.dfy` | `Timeline` | `scrollytelling.js` |
| `flags.dfy` | `Flags` | `download_flags.py` |
| `crop.dfy` | `Crop` | `crop_photos.py` |
| `images.dfy` | `Images` | `image_loader.py` |

## Model

| member | source | states |
|---|---|---|
| Timeline.Normalize | tennis-scrollytelling/js/scrollytelling.js:36-41 | The length and every date are kept. `rank` becomes `rankings`, or `[]` when absent. `top` becomes `[]` and `total_period_titles` becomes 0. |
| Timeline.SampleData | tennis-scrollytelling/js/scrollytelling.js:497-528 | The two sample timepoints (1973-08-27 and 2010-01-04) have five ranking rows each. Their leaders are none and three, and their title totals are 0 and 28. |
| Timeline.LoadDataAsWritten | tennis-scrollytelling/js/scrollytelling.js:14-48 | The chain as written: monthly is used iff it loaded a non-empty list. Otherwise weekly is used iff it loaded, even when empty. Then legacy is used iff it loaded, as its normalised weeks. The sample data is used last. Each source's data is exactly what it loaded. |
| Timeline.EmptyWeeklyGivesEmptyTimeline | tennis-scrollytelling/js/scrollytelling.js:23-27 | A weekly file that parses to `[]` after a failed monthly fetch leaves the page with no timepoints. |
| Timeline.LoadData | tennis-scrollytelling/js/scrollytelling.js:14-48 | Corrected chain: the data is never empty. Each source is chosen iff every earlier one is unusable and it is usable. The data is that source's list exactly, legacy normalised, or the sample data. |
| Timeline.LoadDataAgreesWhenNonEmpty | tennis-scrollytelling/js/scrollytelling.js:14-48 | When no loaded file is an empty list, the corrected chain and the written chain agree. |
| Timeline.MinYear | tennis-scrollytelling/js/scrollytelling.js:82-83 | `Math.min` over the years is one of the years and bounds all of them from below. |
| Timeline.MaxYear | tennis-scrollytelling/js/scrollytelling.js:82-84 | `Math.max` over the years is one of the years and bounds all of them from above. |
| Timeline.FirstDecade | tennis-scrollytelling/js/scrollytelling.js:88 | `Math.ceil(minYear/10)*10` is a multiple of ten in `[minYear, minYear+10)`. |
| Timeline.DecadeMarkers | tennis-scrollytelling/js/scrollytelling.js:87-90 | The loop yields exactly the multiples of ten in `[minYear, maxYear]`, ascending in steps of ten from the first decade. |
| Timeline.TimelineYears | tennis-scrollytelling/js/scrollytelling.js:82-90 | The markers are exactly the decades between the earliest and latest year of the data, ten years apart. |
| Timeline.MarkerEmphasis | tennis-scrollytelling/js/scrollytelling.js:139-151 | A marker is active iff its year is not after the current year. An inactive marker is 30 px wide. An active one is 30 + 2 px per year behind, capped at 50. |
| Timeline.EmphasisDecays | tennis-scrollytelling/js/scrollytelling.js:139-151 | Along ascending markers, the active markers form a prefix and the widths never increase. |
| Timeline.TopRankings | tennis-scrollytelling/js/scrollytelling.js:275-276 | The table rows are the first `min(10, n)` ranking entries, in order. |
| Timeline.SumTitlesAppend | tennis-scrollytelling/js/scrollytelling.js:334 | The title reduce distributes over concatenation. |
| Timeline.SumTitlesSign | tennis-scrollytelling/js/scrollytelling.js:334-335 | With non-negative titles the sum is non-negative, and it is zero iff every title is zero. |
| Timeline.PieData | tennis-scrollytelling/js/scrollytelling.js:329-346 | At most 8 slices. Up to 8 leaders are kept as they are. A longer list keeps its first 7, plus one "Others" slice iff the rest hold more than 0 titles; that slice carries their sum. |
| Timeline.PieDataKeepsTitles | tennis-scrollytelling/js/scrollytelling.js:329-346 | With non-negative titles the slices carry exactly the leaders' total titles. |
| Timeline.PieDataGroupsOthers | tennis-scrollytelling/js/scrollytelling.js:331-342 | More than eight leaders, each with a title, give eight slices, the last being "Others". |
| Timeline.Clamp | tennis-scrollytelling/js/scrollytelling.js:197 | The offset is clamped to `[0, H]`: in range, unchanged inside, and the nearest bound outside. |
| Timeline.RoundHalfUp | tennis-scrollytelling/js/scrollytelling.js:206 | `Math.round(num/den)` is the integer within one half of `num/den`, with halves rounded up. |
| Timeline.DragIndex | tennis-scrollytelling/js/scrollytelling.js:192-206 | The selected index is a valid timepoint index. The top edge selects 0 and the bottom edge the last timepoint. |
| Timeline.DragIndexMonotone | tennis-scrollytelling/js/scrollytelling.js:197-206 | Dragging lower never selects an earlier timepoint. |
| Timeline.DragIndexHalfway | tennis-scrollytelling/js/scrollytelling.js:206 | The midpoint of 100 timepoints selects index 50 (`Math.round(49.5)`). |
| Timeline.RankingTimeline.constructor | tennis-scrollytelling/js/scrollytelling.js:14-57 | Start-up takes its data from the corrected chain (LoadData), builds the decade markers, sets index 0 and no drag, and renders the tables once. |
| Timeline.RankingTimeline.CurrentView | tennis-scrollytelling/js/scrollytelling.js:263-304 | What is drawn for the current index. The rows are the first `min(10, n)` ranking entries of the current timepoint. The slices are its leaders when there are at most 8, and otherwise start with its first 7. Each marker gets the style its year has against the current year. |
| Timeline.RankingTimeline.ScrollEnter | tennis-scrollytelling/js/scrollytelling.js:477-487 | Entering a section moves the index to its tag. Only a different tag redraws the tables and then the timeline. |
| Timeline.RankingTimeline.MouseDown | tennis-scrollytelling/js/scrollytelling.js:180-187 | Pressing the indicator starts a drag and changes nothing else. |
| Timeline.RankingTimeline.MouseMove | tennis-scrollytelling/js/scrollytelling.js:189-223 | Without a drag nothing happens. During a drag the indicator follows the clamped offset. A different selected index becomes current, and the tables, year text and section scroll follow in that order. A zero-height container neither moves the indicator (its top would be `NaN%`) nor selects anything. |
| Timeline.RankingTimeline.MouseUp | tennis-scrollytelling/js/scrollytelling.js:225-231 | Releasing ends the drag and redraws the timeline once, only if a drag was in progress. |
| Timeline.DragThenScroll | tennis-scrollytelling/js/scrollytelling.js:209-220 | The drag moves the indicator to the clamped offset when the container has a height. It draws the tables, the year and the scroll exactly when it selects a new index. The scroll event from its own `scrollIntoView` then adds nothing more. |
| Flags.CountrySetExtend | download_flags.py:21-24 | Adding a player adds its upper-cased country, if it has one, and nothing else. |
| Flags.LoadPlayerCountries | download_flags.py:15-36 | The set holds the upper-cased non-empty countries of the players and no more than one per player. A missing file or invalid JSON gives the empty set. |
| Flags.CountrySetSize | download_flags.py:21-24 | There are no more distinct codes than players. |
| Flags.IsoMapping | download_flags.py:39-128 | The table of tennis codes whose ISO code differs. Every ISO code it gives is two upper-case letters. |
| Flags.Get | download_flags.py:271 | `iso_mapping.get(code, code)`: a code the table lists maps to its ISO code. Any other code stands for itself. |
| Flags.CzechoslovakiaMerges | download_flags.py:66-89 | TCH and CZE both map to CZ. |
| Flags.YugoslaviaMerges | download_flags.py:90-127 | YUG and SRB both map to RS. |
| Flags.SovietUnionMerges | download_flags.py:82-91 | URS and RUS both map to RU. |
| Flags.GermaniesMerge | download_flags.py:59-93 | FRG, GDR and GER all map to DE. |
| Flags.FlagSources | download_flags.py:141-153 | There are six sources, tried in this order. |
| Flags.Extension | download_flags.py:170-175 | `svg` iff the URL ends in `.svg`, else `webp` iff it ends in `.webp`, else `png`. |
| Flags.SourceExtension | download_flags.py:141-175 | The third source is saved as `.svg` and the other five as `.png`, including the Commons PNG rendering of an SVG. |
| Flags.FlagFileName | download_flags.py:178 | The saved name starts with the lower-cased tennis code and a dot, and ends with the extension. |
| Flags.FirstUsable | download_flags.py:155-167 | The chosen source is the first whose response does not raise and holds at least 100 bytes. None means no source qualifies. |
| Flags.TrySources | download_flags.py:155-192 | The sources are requested in order up to the first usable one, whose file is added under the tennis code and the URL's extension. If none is usable, all are requested, the result is false and nothing changes. |
| Flags.HasFlagKept | download_flags.py:135 | A flag found by the `<code>.*` glob is still found after more files are added. |
| Flags.DownloadFlag | download_flags.py:131-192 | An existing `<code>.*` file gives success with no request. Otherwise the candidate URLs are requested in order up to the first usable one, whose file is added. If none is usable, all are requested, the call fails, nothing changes and no source was usable. |
| Flags.SavedNameIsFirstUsable | download_flags.py:155-183 | The only file a download may save for a code is the one named after the first usable source. There is none when no source is usable. |
| Flags.Least | download_flags.py:267 | The least code in Python string order. |
| Flags.SortedCodes | download_flags.py:267 | `sorted(countries)` contains every code once, in ascending order. |
| Flags.SavedNamesGrow | download_flags.py:267-279 | The files the codes so far may have saved only grow as the loop goes on. |
| Flags.EarlierCodesFlagged | download_flags.py:267-279 | In the sorted order, the codes that sort before the one the loop stopped at are exactly those it already handled, so each of them has a flag. |
| Flags.PrefixSavesUpTo | download_flags.py:267-279 | The files the loop saved before stopping come only from codes that sort at or before the stopping code. |
| Flags.DownloadInOrder | download_flags.py:267-279 | A finished loop gave every code a flag and counted each one. A stopped loop stops at a code left without a flag, none of whose sources was usable, after every earlier code got one. Every new file is one a usable source of some code in the order gave. After a stop, every new file comes from the codes up to the stopping one, so no later code was tried. |
| Flags.DownloadAll | download_flags.py:243-284 | No countries gives an early exit with no change. A finished run left every country with a flag. Otherwise the run stops at a country left without a flag, none of whose six sources was usable. Every country that sorts before it has a flag. Every new file is the one the first usable source of some country gave, and after a stop, of some country sorting at or before the stopping one. |
| Flags.OfflineRunCrashes | download_flags.py:262-279 | With every request raising, a run on one player from Spain stops at `ESP` with nothing counted and nothing saved. |
| Flags.DownloadInOrderReportingFailures | download_flags.py:262-290 | Corrected loop over distinct codes: each is counted once as downloaded or as failed, the failed ones are distinct, and every code not failed has its flag. A code is reported as failed only when none of its sources is usable. Every new file is one a usable source gave. |
| Flags.DownloadAllReportingFailures | download_flags.py:262-290 | Corrected loop: every code is counted once as downloaded or failed, and every code not reported as failed has its flag. A code is reported as failed only when none of the six sources of its mapped ISO code is usable. Every new file is the one the first usable source of some country gave. |
| Crop.ExpandFace | crop_photos.py:58-67 | The centre is `(x + width//2, y + height//2)`. The box lies inside the image and is no larger than the expanded size. An unclipped box has exactly that size and is centred on the face. |
| Crop.SquareCrop | crop_photos.py:88-93 | The box is a square of side `min(w, h)` inside the picture, with left or top at 0. The left and right margins (and the top and bottom ones) differ by at most one pixel. |
| Crop.SquareInsideImage | crop_photos.py:79-93 | The square cut from the clipped face box lies inside both that box and the image. |
| Crop.BaseNameIsLastPart | crop_photos.py:171 | `Path(filename).name` is a suffix of the path and holds no `/`. |
| Crop.StemIsPrefix | crop_photos.py:171 | `Path.stem` is a prefix of the name. |
| Crop.CroppedName | crop_photos.py:171 | The output name of a photo is the stem of its file name followed by `_cropped.png`, so it always ends in `_cropped.png`. |
| Crop.StemOfCropped | crop_photos.py:171 | The stem of `<stem>_cropped.png` is `<stem>_cropped`. |
| Crop.SavedNameIsCroppedName | crop_photos.py:136 | `with_suffix('.png')` leaves the output name unchanged, so the file saved is the file checked for. |
| Crop.Classify | crop_photos.py:176-193 | A missing input fails before the existing output is checked. An existing output is skipped. An unreadable photo, no face or an error fails. Only a cropped face succeeds. |
| Crop.RunBatchCounts | crop_photos.py:161-193 | Every player increments exactly one counter, so the counters sum to the player count. No file is removed. |
| Crop.RunBatchSavesOnSuccess | crop_photos.py:188-193 | The batch adds no more files than it counts successes. |
| Crop.BatchProcess | crop_photos.py:146-193 | Without the list nothing happens. Otherwise the loop's counters and directory are those of the per-player fold, and they sum to the player count. |
| Images.FileName | image_loader.py:175 | The photo is named `<player_id>.jpg`. |
| Images.FileNameInjective | image_loader.py:175 | Distinct player ids give distinct file names. |
| Images.CommonsUrl | image_loader.py:128-129 | The address is the Commons `Special:FilePath/` prefix followed by the file name, with each space replaced by `_` and no space left. |
| Images.DirectImage | image_loader.py:104-134 | An address exists iff the entity's first P18 claim carries a file name. It is then that file's Commons address. |
| Images.PageTitle | image_loader.py:36-58 | A title exists iff the entity has an `enwiki` sitelink. |
| Images.FirstPresent | image_loader.py:95-97 | The first page with a thumbnail, or none if no page has one. |
| Images.MainImage | image_loader.py:60-102 | The summary's original image comes first, then its thumbnail. Pageimages is queried iff the summary gives neither (or fails). The answer is then the first page thumbnail present, and none when the query fails or no page has one. |
| Images.FindImageUrl | image_loader.py:187-201 | The Wikidata image is asked for first. The sitelinks are asked for only when it gives none. Without a page title there is no address. With one, the address and the requests are those of the page's main-image lookup. |
| Images.DecisiveFrom | image_loader.py:138-162 | The first try that does not raise, or none when every allowed try raises. |
| Images.DownloadImage | image_loader.py:136-166 | At most 3 tries, all but the last raising. A non-image or empty file ends the loop at once. Success iff the last try wrote content. Sleeps of `2^attempt` s follow every try but the last. |
| Images.PlayerOutcomeFiles | image_loader.py:149-156 | A reported success leaves the player's photo. Only that file can be added and none is removed. |
| Images.ProcessPlayer | image_loader.py:168-210 | An existing photo gives success with no request. Otherwise the source lookups come first. No download is made without an address. With one, 1 to 3 download requests to it follow. |
| Images.Classify | image_loader.py:240-261 | A record missing a required field fails. An existing photo is skipped. Otherwise `process_player`'s result decides. |
| Images.DownloadedThenSkipped | image_loader.py:247-253 | A player downloaded in one pass is skipped by the next. |
| Images.RunDownloadsCounts | image_loader.py:233-268 | Every record increments exactly one counter, so the counters sum to the record count. No file is removed. |
| Images.Run | image_loader.py:212-268 | A missing or unreadable file, or a non-list, gives no tally and no change. Otherwise the loop's counters and directory are those of the per-record fold. |

## Left out

- Drawing is not modelled: DOM and SVG work, the d3 pie layout, colours, labels, tooltips, the scrollama set-up and the resize listener. The model records which drawing routine runs, for which index, in order.
- Dates are not parsed. Each timepoint carries the year that `new Date(date).getFullYear()` would give, which depends on the time zone.
- Floating-point values are not modelled: the marker `top` percentages, the progress bar height, the momentum totals and `toFixed`, and the pie's slice angles, which are sized by `momentum_score`. The "Others" slice is modelled as written, summing `period_titles`.
- `updateDate` is never called by the controller and is not modelled.
- A click on the timeline that selects the nearest year is not modelled. `scrollytelling.js` registers no click handler for it.
- Timeline.RankingTimeline.constructor: builds the page from the corrected chain (LoadData). The page's start-up on an empty timeline, as the chain is written, is not modelled by the class; LoadDataAsWritten and the finding about it cover that case.
- Timeline.DragIndex: uses integers with `Math.round` pinned as rounding halves up. It does not model floating-point rounding of `newTop / containerHeight * 100`.
- Touch events call the same handlers as the mouse events and are not modelled separately.
- Logging, `print`, `console.log`, `time.sleep` and request time-outs are not modelled. The back-off sleeps of the photo downloader are returned, not performed.
- Case mapping covers ASCII letters only. Python's `str.upper` and `str.lower` also map other Unicode letters.
- `retry_failed_flags` is not modelled: a hard-coded list, deleting files and re-downloading.
- The fallback flag is not modelled. Its definition is commented out, so the call to it stops the run (see Findings).
- Timeline.PieData: takes `period_titles` as a number present in every leader entry. When an entry lacks the key, the page's sum is `NaN`, and `NaN > 0` is false (`scrollytelling.js:333-335`). The page then drops the "Others" slice even when the other leaders have titles. The model does not represent a missing value.
- The flag downloader does not model a write error while saving, or a `.webp` source, which none of the six sources is.
- Face detection, image decoding, colour conversion, resizing, the circular mask and the blur are not modelled. Crop.ExpandFace takes the pixel box and the expanded size as integers; it does not model the float step from the relative box and the ×1.7 factor.
- Flags.LoadPlayerCountries: only a missing file and invalid JSON are caught (`download_flags.py:30-36`). It does not model a `country` that is not a string, which raises `AttributeError`, or a top-level JSON object, which Python iterates by key. It also does not model a file that is not valid UTF-8, whose decode error escapes.
- In `crop_photos.py`, an unreadable player list or a record missing a key raises out of the batch. Only the missing list file is modelled.
- Crop.BaseName: does not model path normalisation beyond splitting at the last `/` (a trailing slash, `..`, Windows separators).
- Images.PlayerRecord: `player_id` is an integer. Other JSON types printed by the f-string, and `null` values, are not modelled.
- Images.DownloadImage: a try that raises after the file was opened leaves a partial file in the source. In the model it leaves none.
- The `except` branch of `run` is not modelled. Every outcome is total in the model, so `process_player` never raises. `run`'s one-second pause is not modelled either.
- An `originalimage` or `thumbnail` object without a `source` key, and a P18 value that is not a string, raise and are caught in the source. The model takes each as a present string or as absent.

## Findings

| source | as written | input that shows it | evidently intended | confidence | as-written member | corrected member |
|---|---|---|---|---|---|---|
| tennis-scrollytelling/js/scrollytelling.js:23-42 | An empty weekly or legacy list is accepted as the timeline. An empty monthly list falls through only because the log line reads `data[0].date`. | The monthly fetch fails and the weekly file holds `[]`. The page then has no timepoints, and `this.data[this.currentIndex]` is undefined in `renderTables`. | An empty list is treated as a failed stage and the chain falls through to the next source. | medium; not executed | Timeline.EmptyWeeklyGivesEmptyTimeline | Timeline.LoadData |
| download_flags.py:279 | A failed download calls `create_fallback_flag`, whose definition is commented out (lines 195-207). | A code for which none of the six sources answers with 100 bytes or more. The run stops there with a `NameError`, and the codes after it are never tried. | The failure is recorded and the loop continues, as the summary's count of failed flags shows. | high; not executed | Flags.OfflineRunCrashes | Flags.DownloadAllReportingFailures |

=== FILE: common.dfy ===
/** Small value types and helpers shared by the page and the batch scripts. */
module Common {

  function Min(a: int, b: int): int { if a <= b then a else b }
  function Max(a: int, b: int): int { if a >= b then a else b }

  /** A JSON key that may be absent, or an operation that may give nothing. */
  datatype Option<+T> = None | Some(value: T)

  /** How one player of a batch ends up being counted. */
  datatype Verdict = Succeeded | Failed | Skipped

  /** The three counters kept by the batch loops of the photo scripts. */
  datatype Tally = Tally(successful: nat, failed: nat, skipped: nat)
  {
    function Total(): nat { successful + failed + skipped }

    /** The counters after one more player, counted under v. */
    function Record(v: Verdict): Tally
    {
      match v
      case Succeeded => Tally(successful + 1, failed, skipped)
      case Failed => Tally(successful, failed + 1, skipped)
      case Skipped => Tally(successful, failed, skipped + 1)
    }
  }

  const NoneCounted := Tally(0, 0, 0)

  /** The counters and the set of files in the output directory, part-way through a batch. */
  datatype Progress = Progress(tally: Tally, files: set<string>)
}

=== FILE: crop.dfy ===
/**
 * The face cropper (crop_photos.py): the integer geometry of the expanded face box
 * and of the centred square cut from it, the name of the cropped file, and the
 * batch loop's tally. Face detection, image decoding and drawing are outcomes
 * given as inputs; the directories are sets of file names.
 */
module Crop {
  import opened Common
  import opened Text

  // ---------------------------------------------------------------------------
  // Geometry (detect_face, create_circular_crop)
  // ---------------------------------------------------------------------------

  /** A pixel box (left, top, right, bottom), right and bottom exclusive. */
  datatype Box = Box(x1: int, y1: int, x2: int, y2: int)

  datatype Face = Face(bbox: Box, centerX: int, centerY: int)

  /**
   * The detected box (x, y, width, height) grown to newWidth x newHeight around
   * its centre and clipped to a w x h image. Python's `//` rounds down, as Dafny's
   * `/` does for a positive divisor.
   */
  function ExpandFace(x: int, y: int, width: int, height: int, newWidth: int, newHeight: int,
                      w: int, h: int): (f: Face)
    ensures f.centerX == x + width / 2 && f.centerY == y + height / 2
    ensures 0 <= f.bbox.x1 && 0 <= f.bbox.y1 && f.bbox.x2 <= w && f.bbox.y2 <= h
    ensures f.bbox.x2 - f.bbox.x1 <= newWidth && f.bbox.y2 - f.bbox.y1 <= newHeight
    // a box that fits the image keeps its full size and stays centred on the face
    ensures 0 <= f.centerX - newWidth / 2 && f.centerX - newWidth / 2 + newWidth <= w ==>
              f.bbox.x1 == f.centerX - newWidth / 2 && f.bbox.x2 - f.bbox.x1 == newWidth
    ensures 0 <= f.centerY - newHeight / 2 && f.centerY - newHeight / 2 + newHeight <= h ==>
              f.bbox.y1 == f.centerY - newHeight / 2 && f.bbox.y2 - f.bbox.y1 == newHeight
  {
    var centerX := x + width / 2;
    var centerY := y + height / 2;
    var newX := Max(0, centerX - newWidth / 2);
    var newY := Max(0, centerY - newHeight / 2);
    var newX2 := Min(w, newX + newWidth);
    var newY2 := Min(h, newY + newHeight);
    Face(Box(newX, newY, newX2, newY2), centerX, centerY)
  }

  /** The largest square centred in a width x height picture, in its own coordinates. */
  function SquareCrop(width: nat, height: nat): (b: Box)
    ensures b.x2 - b.x1 == b.y2 - b.y1 == Min(width, height)
    ensures 0 <= b.x1 && b.x2 <= width && 0 <= b.y1 && b.y2 <= height
    ensures b.x1 == 0 || b.y1 == 0
    ensures width - (b.x2 - b.x1) - 2 * b.x1 in {0, 1}
    ensures height - (b.y2 - b.y1) - 2 * b.y1 in {0, 1}
  {
    var size := Min(width, height);
    var left := (width - size) / 2;
    var top := (height - size) / 2;
    Box(left, top, left + size, top + size)
  }

  /**
   * The square that ends up in the photo, in image coordinates: cut from a
   * non-empty expanded face box, it is a square inside the image and inside that box.
   */
  lemma SquareInsideImage(f: Face, w: int, h: int)
    requires 0 <= f.bbox.x1 <= f.bbox.x2 <= w && 0 <= f.bbox.y1 <= f.bbox.y2 <= h
    ensures var s := SquareCrop(f.bbox.x2 - f.bbox.x1, f.bbox.y2 - f.bbox.y1);
      && 0 <= f.bbox.x1 + s.x1 && f.bbox.x1 + s.x2 <= f.bbox.x2 <= w
      && 0 <= f.bbox.y1 + s.y1 && f.bbox.y1 + s.y2 <= f.bbox.y2 <= h
  {
  }

  // ---------------------------------------------------------------------------
  // File names (Path.name, Path.stem, Path.with_suffix)
  // ---------------------------------------------------------------------------

  /** Path(p).name: the part after the last '/'. */
  function BaseName(path: string): string
  {
    path[RFind(path, '/') + 1..]
  }

  /** The name is the end of the path and holds no '/'. */
  lemma BaseNameIsLastPart(path: string)
    ensures HasSuffix(path, BaseName(path))
    ensures forall k :: 0 <= k < |BaseName(path)| ==> BaseName(path)[k] != '/'
  {
  }

  /** Path.stem: the name without its last suffix; a leading or trailing dot is no suffix. */
  function Stem(name: string): string
  {
    var i := RFind(name, '.');
    if 0 < i < |name| - 1 then name[..i] else name
  }

  lemma StemIsPrefix(name: string)
    ensures HasPrefix(name, Stem(name))
  {
  }

  /** Path.with_suffix(suffix) on a name. */
  function WithSuffix(name: string, suffix: string): string
  {
    Stem(name) + suffix
  }

  /** The name of the cropped photo: the input's stem followed by "_cropped.png". */
  function CroppedName(filename: string): (name: string)
    ensures HasSuffix(name, "_cropped.png")
  {
    Stem(BaseName(filename)) + "_cropped.png"
  }

  lemma StemOfCropped(stem: string)
    ensures Stem(stem + "_cropped.png") == stem + "_cropped"
  {
    var name := stem + "_cropped.png";
    var dot := |name| - 4;
    assert name[dot] == '.' && name[dot + 1] == 'p' && name[dot + 2] == 'n' && name[dot + 3] == 'g';
    assert RFind(name, '.') == dot;
    assert name[..dot] == stem + "_cropped";
  }

  /** Saving under `output_path.with_suffix('.png')` keeps the cropped name as it is. */
  lemma SavedNameIsCroppedName(filename: string)
    ensures WithSuffix(CroppedName(filename), ".png") == CroppedName(filename)
  {
    var stem := Stem(BaseName(filename));
    StemOfCropped(stem);
    assert stem + "_cropped" + ".png" == stem + "_cropped.png";
  }

  // ---------------------------------------------------------------------------
  // The batch loop (batch_process)
  // ---------------------------------------------------------------------------

  datatype CropPlayer = CropPlayer(playerName: string, filename: string)

  /** What process_image finds in a photo; only a detected face gives a saved crop. */
  datatype PhotoOutcome = Unreadable | NoFace | FaceCropped | Raises

  /**
   * One player: a missing photo fails before the output is looked at, an existing
   * crop is skipped, and otherwise the photo is processed.
   */
  function Classify(p: CropPlayer, inputs: set<string>, outputs: set<string>,
                    photo: string -> PhotoOutcome): (v: Verdict)
    ensures v == Skipped <==> p.filename in inputs && CroppedName(p.filename) in outputs
    ensures v == Succeeded <==> p.filename in inputs && CroppedName(p.filename) !in outputs
                                && photo(p.filename) == FaceCropped
    ensures v == Failed <==> p.filename !in inputs || (CroppedName(p.filename) !in outputs
                                                        && photo(p.filename) != FaceCropped)
  {
    if p.filename !in inputs then Failed
    else if CroppedName(p.filename) in outputs then Skipped
    else if photo(p.filename) == FaceCropped then Succeeded
    else Failed
  }

  /** One iteration of the batch loop; only a saved crop adds a file. */
  function Step(b: Progress, p: CropPlayer, inputs: set<string>, photo: string -> PhotoOutcome): Progress
  {
    var v := Classify(p, inputs, b.files, photo);
    Progress(b.tally.Record(v), if v == Succeeded then b.files + {CroppedName(p.filename)} else b.files)
  }

  /** The counters and the output directory after the given players, in order. */
  function RunBatch(players: seq<CropPlayer>, inputs: set<string>, outputs: set<string>,
                    photo: string -> PhotoOutcome): Progress
    decreases |players|
  {
    if players == [] then Progress(NoneCounted, outputs)
    else Step(RunBatch(players[..|players| - 1], inputs, outputs, photo), players[|players| - 1], inputs, photo)
  }

  /** A step counts the player once and never removes a file. */
  lemma StepCounts(b: Progress, p: CropPlayer, inputs: set<string>, photo: string -> PhotoOutcome)
    ensures Step(b, p, inputs, photo).tally.Total() == b.tally.Total() + 1
    ensures b.files <= Step(b, p, inputs, photo).files
  {
  }

  /** A step saves at most one new file, and only when it counts a success. */
  lemma StepSavesOnSuccess(b: Progress, p: CropPlayer, inputs: set<string>, photo: string -> PhotoOutcome)
    ensures |Step(b, p, inputs, photo).files| - |b.files|
            <= Step(b, p, inputs, photo).tally.successful - b.tally.successful
  {
  }

  /** Every player lands in exactly one counter, and files are only ever added. */
  lemma {:induction false} RunBatchCounts(players: seq<CropPlayer>, inputs: set<string>,
                                          outputs: set<string>, photo: string -> PhotoOutcome)
    ensures RunBatch(players, inputs, outputs, photo).tally.Total() == |players|
    ensures outputs <= RunBatch(players, inputs, outputs, photo).files
    decreases |players|
  {
    if players != [] {
      var init := players[..|players| - 1];
      RunBatchCounts(init, inputs, outputs, photo);
      StepCounts(RunBatch(init, inputs, outputs, photo), players[|players| - 1], inputs, photo);
    }
  }

  /** No more files are saved than crops succeeded. */
  lemma {:induction false} RunBatchSavesOnSuccess(players: seq<CropPlayer>, inputs: set<string>,
                                                  outputs: set<string>, photo: string -> PhotoOutcome)
    ensures |RunBatch(players, inputs, outputs, photo).files| - |outputs|
            <= RunBatch(players, inputs, outputs, photo).tally.successful
    decreases |players|
  {
    if players != [] {
      var init := players[..|players| - 1];
      RunBatchSavesOnSuccess(init, inputs, outputs, photo);
      StepSavesOnSuccess(RunBatch(init, inputs, outputs, photo), players[|players| - 1], inputs, photo);
    }
  }

  /**
   * batch_process: nothing without a player list; otherwise one pass over the
   * players that counts each one and saves the crops it makes.
   */
  method BatchProcess(listExists: bool, players: seq<CropPlayer>, inputs: set<string>,
                      outputs: set<string>, photo: string -> PhotoOutcome)
    returns (tally: Option<Tally>, outputs': set<string>)
    ensures !listExists ==> tally == None && outputs' == outputs
    ensures listExists ==> tally == Some(RunBatch(players, inputs, outputs, photo).tally)
                           && outputs' == RunBatch(players, inputs, outputs, photo).files
    ensures listExists ==> tally.value.Total() == |players|
  {
    outputs' := outputs;
    if !listExists {
      return None, outputs';
    }
    var successful, failed, skipped := 0, 0, 0;
    var i := 0;
    while i < |players|
      invariant 0 <= i <= |players|
      invariant Progress(Tally(successful, failed, skipped), outputs') == RunBatch(players[..i], inputs, outputs, photo)
    {
      var player := players[i];
      var outputName := CroppedName(player.filename);
      assert players[..i + 1][..i] == players[..i];
      if player.filename !in inputs {
        failed := failed + 1;
      } else if outputName in outputs' {
        skipped := skipped + 1;
      } else {
        var outcome := photo(player.filename);
        if outcome == FaceCropped {
          SavedNameIsCroppedName(player.filename);
          outputs' := outputs' + {WithSuffix(outputName, ".png")};
          successful := successful + 1;
        } else {
          failed := failed + 1;
        }
      }
      i := i + 1;
    }
    assert players[..i] == players;
    RunBatchCounts(players, inputs, outputs, photo);
    return Some(Tally(successful, failed, skipped)), outputs';
  }
}

=== FILE: flags.dfy ===
/**
 * The flag downloader (download_flags.py): the set of country codes read from the
 * player list, the tennis-code to ISO-code table, the ordered list of flag sources
 * with the rule that picks the first usable response, and the main loop over the
 * codes in sorted order. The network is a function from URL to response and the
 * flags directory is the set of file names in it.
 */
module Flags {
  import opened Common
  import opened Text

  // ---------------------------------------------------------------------------
  // Country codes of the player list (load_player_countries)
  // ---------------------------------------------------------------------------

  /** A player record; only its optional `country` key is read. */
  datatype PlayerEntry = PlayerEntry(country: Option<string>)

  /** What reading and parsing the player list gives. */
  datatype PlayerFile = Missing | InvalidJson | Players(entries: seq<PlayerEntry>)

  /** `'country' in player and player['country']`: present and non-empty. */
  predicate HasCountry(e: PlayerEntry)
  {
    e.country.Some? && e.country.value != ""
  }

  function CountrySet(entries: seq<PlayerEntry>): set<string>
  {
    set i | 0 <= i < |entries| && HasCountry(entries[i]) :: Upper(entries[i].country.value)
  }

  function Countries(file: PlayerFile): set<string>
  {
    if file.Players? then CountrySet(file.entries) else {}
  }

  lemma CountrySetExtend(entries: seq<PlayerEntry>, e: PlayerEntry)
    ensures CountrySet(entries + [e]) ==
      CountrySet(entries) + (if HasCountry(e) then {Upper(e.country.value)} else {})
  {
    var extended := entries + [e];
    forall c | c in CountrySet(extended)
      ensures c in CountrySet(entries) || (HasCountry(e) && c == Upper(e.country.value))
    {
      var j :| 0 <= j < |extended| && HasCountry(extended[j]) && c == Upper(extended[j].country.value);
      if j < |entries| {
        assert extended[j] == entries[j];
      }
    }
    forall c | c in CountrySet(entries)
      ensures c in CountrySet(extended)
    {
      var j :| 0 <= j < |entries| && HasCountry(entries[j]) && c == Upper(entries[j].country.value);
      assert extended[j] == entries[j];
    }
    if HasCountry(e) {
      assert extended[|entries|] == e;
    }
  }

  /** There are no more codes than players. */
  lemma {:induction false} CountrySetSize(entries: seq<PlayerEntry>)
    ensures |CountrySet(entries)| <= |entries|
    decreases |entries|
  {
    if entries != [] {
      var init := entries[..|entries| - 1];
      CountrySetSize(init);
      CountrySetExtend(init, entries[|entries| - 1]);
      assert init + [entries[|entries| - 1]] == entries;
    }
  }

  /**
   * The loop that adds the upper-cased country of every player that has one; a
   * missing file or invalid JSON gives the empty set.
   */
  method LoadPlayerCountries(file: PlayerFile) returns (countries: set<string>)
    ensures countries == Countries(file)
    ensures file.Players? ==> |countries| <= |file.entries|
    ensures file.Players? ==> forall i :: 0 <= i < |file.entries| && HasCountry(file.entries[i]) ==>
              Upper(file.entries[i].country.value) in countries
  {
    countries := {};
    if !file.Players? {
      return;
    }
    var players := file.entries;
    var i := 0;
    while i < |players|
      invariant 0 <= i <= |players|
      invariant countries == CountrySet(players[..i])
    {
      var player := players[i];
      if player.country.Some? && player.country.value != "" {
        countries := countries + {Upper(player.country.value)};
      }
      CountrySetExtend(players[..i], player);
      assert players[..i + 1] == players[..i] + [player];
      i := i + 1;
    }
    assert players[..i] == players;
    CountrySetSize(players);
  }

  // ---------------------------------------------------------------------------
  // Tennis code to ISO code (get_iso_mapping and `.get(code, code)`)
  // ---------------------------------------------------------------------------

  /**
   * The constant table of tennis (IOC-style) codes with a different ISO 3166 code,
   * grouped as the script groups them; None for a code it does not list.
   */
  function IsoMapping(code: string): (iso: Option<string>)
    ensures iso.Some? ==> |iso.value| == 2 && forall i :: 0 <= i < 2 ==> 'A' <= iso.value[i] <= 'Z'
  {
    match code
    // Americas
    case "ARG" => Some("AR")
    case "BRA" => Some("BR")
    case "CAN" => Some("CA")
    case "CHI" => Some("CL")
    case "COL" => Some("CO")
    case "ECU" => Some("EC")
    case "MEX" => Some("MX")
    case "PAR" => Some("PY")
    case "PER" => Some("PE")
    case "URU" => Some("UY")
    case "USA" => Some("US")
    case "VEN" => Some("VE")
    case "BOL" => Some("BO")
    // Europe
    case "SUI" => Some("CH")
    case "GER" => Some("DE")
    case "GBR" => Some("GB")
    case "GRE" => Some("GR")
    case "SLO" => Some("SI")
    case "DEN" => Some("DK")
    case "NED" => Some("NL")
    case "CRO" => Some("HR")
    case "CZE" => Some("CZ")
    case "SVK" => Some("SK")
    case "BUL" => Some("BG")
    case "ROU" => Some("RO")
    case "POR" => Some("PT")
    case "BEL" => Some("BE")
    case "AUT" => Some("AT")
    case "SWE" => Some("SE")
    case "NOR" => Some("NO")
    case "FIN" => Some("FI")
    case "ISL" => Some("IS")
    case "IRL" => Some("IE")
    case "POL" => Some("PL")
    case "HUN" => Some("HU")
    case "UKR" => Some("UA")
    case "BLR" => Some("BY")
    case "RUS" => Some("RU")
    case "BIH" => Some("BA")
    case "CYP" => Some("CY")
    case "LAT" => Some("LV")
    case "LUX" => Some("LU")
    // Historical codes
    case "TCH" => Some("CZ")
    case "YUG" => Some("RS")
    case "URS" => Some("RU")
    case "FRG" => Some("DE")
    case "GDR" => Some("DE")
    // Asia-Pacific
    case "VIE" => Some("VN")
    case "TPE" => Some("TW")
    case "HKG" => Some("HK")
    case "SIN" => Some("SG")
    case "MAS" => Some("MY")
    case "PHI" => Some("PH")
    case "INA" => Some("ID")
    case "THA" => Some("TH")
    case "JPN" => Some("JP")
    case "KOR" => Some("KR")
    case "CHN" => Some("CN")
    case "IND" => Some("IN")
    case "PAK" => Some("PK")
    case "AUS" => Some("AU")
    case "NZL" => Some("NZ")
    case "UZB" => Some("UZ")
    case "KAZ" => Some("KZ")
    case "GEO" => Some("GE")
    case "ARM" => Some("AM")
    // Africa and Middle East
    case "RSA" => Some("ZA")
    case "EGY" => Some("EG")
    case "MAR" => Some("MA")
    case "TUN" => Some("TN")
    case "ISR" => Some("IL")
    // Common codes
    case "ESP" => Some("ES")
    case "FRA" => Some("FR")
    case "ITA" => Some("IT")
    case "SRB" => Some("RS")
    case _ => None
  }

  /** `mapping.get(code, code)`: a code the table does not list stands for itself. */
  function Get(mapping: string -> Option<string>, code: string): (iso: string)
    ensures mapping(code).Some? ==> iso == mapping(code).value
    ensures mapping(code).None? ==> iso == code
  {
    match mapping(code)
    case Some(mapped) => mapped
    case None => code
  }

  // Historical codes map onto the modern countries, so the table is many-to-one.

  lemma CzechoslovakiaMerges()
    ensures IsoMapping("TCH") == IsoMapping("CZE") == Some("CZ")
  {
  }

  lemma YugoslaviaMerges()
    ensures IsoMapping("YUG") == IsoMapping("SRB") == Some("RS")
  {
  }

  lemma SovietUnionMerges()
    ensures IsoMapping("URS") == IsoMapping("RUS") == Some("RU")
  {
  }

  lemma GermaniesMerge()
    ensures IsoMapping("FRG") == IsoMapping("GDR") == IsoMapping("GER") == Some("DE")
  {
  }

  // ---------------------------------------------------------------------------
  // One flag (download_flag)
  // ---------------------------------------------------------------------------

  /** The six sources, tried in this order. */
  function FlagSources(iso: string): (urls: seq<string>)
    ensures |urls| == 6
  {
    var low := Lower(iso);
    // a PNG rendering of the Wikimedia Commons SVG
    var commons := "https://upload.wikimedia.org/wikipedia/commons/thumb/a/a9/Flag_of_" + iso + ".svg/80px-Flag_of_" + iso + ".svg";
    [ "https://flagcdn.com/w80/" + low + ".png",
      "https://flagcdn.com/h60/" + low + ".png",
      "https://flagcdn.com/" + low + ".svg",
      "https://flagpedia.net/data/flags/w160/" + low + ".png",
      "https://flagpedia.net/data/flags/icon/" + low + ".png",
      commons + ".png" ]
  }

  /** The extension the saved file gets, from the end of the URL. */
  function Extension(url: string): (ext: string)
    ensures ext == "svg" <==> HasSuffix(url, ".svg")
    ensures ext == "webp" <==> !HasSuffix(url, ".svg") && HasSuffix(url, ".webp")
    ensures ext == "png" <==> !HasSuffix(url, ".svg") && !HasSuffix(url, ".webp")
  {
    if HasSuffix(url, ".svg") then "svg"
    else if HasSuffix(url, ".webp") then "webp"
    else "png"
  }

  lemma EndsWithPng(prefix: string)
    ensures Extension(prefix + ".png") == "png"
  {
  }

  lemma EndsWithSvg(prefix: string)
    ensures Extension(prefix + ".svg") == "svg"
  {
  }

  /**
   * Only the third source (an SVG file) is saved as `.svg`; every other one as `.png`.
   * The case split names each URL's last four characters, which keeps the solver from
   * unfolding all six URLs at once.
   */
  lemma SourceExtension(iso: string, k: nat)
    requires k < 6
    ensures Extension(FlagSources(iso)[k]) == if k == 2 then "svg" else "png"
  {
    var low := Lower(iso);
    var url := FlagSources(iso)[k];
    if k == 0 {
      assert url == ("https://flagcdn.com/w80/" + low) + ".png";
      EndsWithPng("https://flagcdn.com/w80/" + low);
    } else if k == 1 {
      assert url == ("https://flagcdn.com/h60/" + low) + ".png";
      EndsWithPng("https://flagcdn.com/h60/" + low);
    } else if k == 2 {
      assert url == ("https://flagcdn.com/" + low) + ".svg";
      EndsWithSvg("https://flagcdn.com/" + low);
    } else if k == 3 {
      assert url == ("https://flagpedia.net/data/flags/w160/" + low) + ".png";
      EndsWithPng("https://flagpedia.net/data/flags/w160/" + low);
    } else if k == 4 {
      assert url == ("https://flagpedia.net/data/flags/icon/" + low) + ".png";
      EndsWithPng("https://flagpedia.net/data/flags/icon/" + low);
    } else {
      var commons := "https://upload.wikimedia.org/wikipedia/commons/thumb/a/a9/Flag_of_" + iso + ".svg/80px-Flag_of_" + iso + ".svg";
      assert url == commons + ".png";
      EndsWithPng(commons);
    }
  }

  /** The saved file is named by the lower-cased tennis code, not the ISO code. */
  function FlagFileName(code: string, ext: string): (name: string)
    ensures HasPrefix(name, Lower(code) + ".")
    ensures HasSuffix(name, ext)
  {
    var name := Lower(code) + "." + ext;
    assert name[..|Lower(code)| + 1] == Lower(code) + ".";
    assert name[|name| - |ext|..] == ext;
    name
  }

  /** `flags_dir.glob(f"{code.lower()}.*")` finds a file. */
  predicate HasFlag(files: set<string>, code: string)
  {
    exists f :: f in files && HasPrefix(f, Lower(code) + ".")
  }

  /** Adding files never loses a flag. */
  lemma HasFlagKept(files: set<string>, more: set<string>, code: string)
    requires files <= more && HasFlag(files, code)
    ensures HasFlag(more, code)
  {
    var f :| f in files && HasPrefix(f, Lower(code) + ".");
    assert f in more;
  }

  /**
   * One more code handled: the codes so far that are not reported as failed keep
   * their flags, and the new code has one unless it is reported.
   */
  lemma FlaggedExtend(order: seq<string>, n: nat, failed: seq<string>, failed': seq<string>,
                      files: set<string>, more: set<string>)
    requires n < |order| && files <= more
    requires forall j :: 0 <= j < n && order[j] !in failed ==> HasFlag(files, order[j])
    requires forall c :: c in failed ==> c in failed'
    requires order[n] !in failed' ==> HasFlag(more, order[n])
    ensures forall j :: 0 <= j < n + 1 && order[j] !in failed' ==> HasFlag(more, order[j])
  {
    forall j | 0 <= j < n && order[j] !in failed' ensures HasFlag(more, order[j]) {
      HasFlagKept(files, more, order[j]);
    }
  }

  /** One HTTP answer: an exception (network or HTTP status) or a body of some size. */
  datatype Response = Raises | Body(size: nat)

  /** A response that does not raise and holds at least 100 bytes is saved. */
  predicate Usable(r: Response)
  {
    r.Body? && r.size >= 100
  }

  /** The position of the first source whose response is usable. */
  function FirstUsable(urls: seq<string>, fetch: string -> Response): (k: Option<nat>)
    ensures k.Some? ==> k.value < |urls| && Usable(fetch(urls[k.value]))
    ensures k.Some? ==> forall j :: 0 <= j < k.value ==> !Usable(fetch(urls[j]))
    ensures k.None? ==> forall j :: 0 <= j < |urls| ==> !Usable(fetch(urls[j]))
  {
    if urls == [] then None
    else if Usable(fetch(urls[0])) then Some(0)
    else match FirstUsable(urls[1..], fetch)
      case None => None
      case Some(k) => Some(k + 1)
  }

  /** The first usable source is the one before which none is usable. */
  lemma FirstUsableAt(urls: seq<string>, fetch: string -> Response, i: nat)
    requires i < |urls| && Usable(fetch(urls[i]))
    requires forall j :: 0 <= j < i ==> !Usable(fetch(urls[j]))
    ensures FirstUsable(urls, fetch) == Some(i)
  {
  }

  lemma FirstUsableNone(urls: seq<string>, fetch: string -> Response)
    requires forall j :: 0 <= j < |urls| ==> !Usable(fetch(urls[j]))
    ensures FirstUsable(urls, fetch) == None
  {
  }

  /**
   * The loop of download_flag: the sources are requested in order until one answers
   * with at least 100 bytes, which is saved under the tennis code.
   */
  method TrySources(code: string, sources: seq<string>, files: set<string>, fetch: string -> Response)
    returns (ok: bool, files': set<string>, requested: seq<string>)
    ensures match FirstUsable(sources, fetch)
      case Some(k) =>
        ok && requested == sources[..k + 1] && files' == files + {FlagFileName(code, Extension(sources[k]))}
      case None =>
        !ok && requested == sources && files' == files
  {
    files' := files;
    requested := [];
    var i := 0;
    while i < |sources|
      invariant 0 <= i <= |sources|
      invariant requested == sources[..i]
      invariant files' == files
      invariant forall j :: 0 <= j < i ==> !Usable(fetch(sources[j]))
    {
      var url := sources[i];
      requested := requested + [url];
      var response := fetch(url);
      if response.Raises? || response.size < 100 {
        i := i + 1;
        continue;
      }
      FirstUsableAt(sources, fetch, i);
      var name := FlagFileName(code, Extension(url));
      files' := files' + {name};
      return true, files', requested;
    }
    FirstUsableNone(sources, fetch);
    return false, files', requested;
  }

  /**
   * Downloads the flag of `code`: an existing flag file ends it at once with
   * success; otherwise the candidate URLs are tried in order. main passes the
   * list FlagSources builds from the code's ISO code.
   */
  method DownloadFlag(code: string, sources: seq<string>, files: set<string>, fetch: string -> Response)
    returns (ok: bool, files': set<string>, requested: seq<string>)
    ensures files <= files'
    ensures ok ==> HasFlag(files', code)
    ensures !ok ==> files' == files && !HasFlag(files, code) && FirstUsable(sources, fetch).None?
    ensures files' - files <= SavedName(code, sources, fetch)
    ensures HasFlag(files, code) ==> ok && files' == files && requested == []
    ensures !HasFlag(files, code) ==>
      match FirstUsable(sources, fetch)
      case Some(k) =>
        ok && requested == sources[..k + 1] && files' == files + {FlagFileName(code, Extension(sources[k]))}
      case None =>
        !ok && requested == sources && files' == files
  {
    if HasFlag(files, code) {
      return true, files, [];
    }
    ok, files', requested := TrySources(code, sources, files, fetch);
    SavedNameIsFirstUsable(code, sources, fetch);
  }

  /**
   * The file download_flag may save for `code`, taking the sources in order: the
   * one named after the first usable source, and none when no source is usable.
   */
  function SavedName(code: string, sources: seq<string>, fetch: string -> Response): set<string>
    decreases |sources|
  {
    if sources == [] then {}
    else if Usable(fetch(sources[0])) then {FlagFileName(code, Extension(sources[0]))}
    else SavedName(code, sources[1..], fetch)
  }

  /** The name saved is the one of the source FirstUsable picks. */
  lemma {:induction false} SavedNameIsFirstUsable(code: string, sources: seq<string>, fetch: string -> Response)
    ensures SavedName(code, sources, fetch) ==
      match FirstUsable(sources, fetch)
      case Some(k) => {FlagFileName(code, Extension(sources[k]))}
      case None => {}
    decreases |sources|
  {
    if sources != [] && !Usable(fetch(sources[0])) {
      SavedNameIsFirstUsable(code, sources[1..], fetch);
    }
  }

  // ---------------------------------------------------------------------------
  // The main loop (main)
  // ---------------------------------------------------------------------------

  /** The files the first n codes of `order` may have saved between them. */
  function SavedNames(order: seq<string>, n: nat, mapping: string -> Option<string>,
                      sourcesOf: string -> seq<string>, fetch: string -> Response): set<string>
    requires n <= |order|
    decreases n
  {
    if n == 0 then {}
    else SavedNames(order, n - 1, mapping, sourcesOf, fetch)
         + SavedName(order[n - 1], sourcesOf(Get(mapping, order[n - 1])), fetch)
  }

  lemma {:induction false} SavedNamesGrow(order: seq<string>, m: nat, n: nat, mapping: string -> Option<string>,
                                          sourcesOf: string -> seq<string>, fetch: string -> Response)
    requires m <= n <= |order|
    ensures SavedNames(order, m, mapping, sourcesOf, fetch) <= SavedNames(order, n, mapping, sourcesOf, fetch)
    decreases n
  {
    if m < n {
      SavedNamesGrow(order, m, n - 1, mapping, sourcesOf, fetch);
    }
  }

  /** One more code keeps the new files among those the codes so far may have saved. */
  lemma SavedNamesStep(files: set<string>, before: set<string>, after: set<string>, order: seq<string>, i: nat,
                       mapping: string -> Option<string>, sourcesOf: string -> seq<string>,
                       fetch: string -> Response)
    requires i < |order|
    requires before - files <= SavedNames(order, i, mapping, sourcesOf, fetch)
    requires after - before <= SavedName(order[i], sourcesOf(Get(mapping, order[i])), fetch)
    ensures after - files <= SavedNames(order, i + 1, mapping, sourcesOf, fetch)
  {
  }

  /** A step of a loop over `order` keeps the new files among those all of `order` may save. */
  lemma SavedWithinAll(files: set<string>, before: set<string>, after: set<string>, order: seq<string>, i: nat,
                       mapping: string -> Option<string>, sourcesOf: string -> seq<string>,
                       fetch: string -> Response)
    requires i < |order|
    requires before - files <= SavedNames(order, |order|, mapping, sourcesOf, fetch)
    requires after - before <= SavedName(order[i], sourcesOf(Get(mapping, order[i])), fetch)
    ensures after - files <= SavedNames(order, |order|, mapping, sourcesOf, fetch)
  {
    SavedNamesGrow(order, i + 1, |order|, mapping, sourcesOf, fetch);
  }

  /** The files any code of `codes` may have saved. */
  function SavedFor(codes: set<string>, mapping: string -> Option<string>,
                    sourcesOf: string -> seq<string>, fetch: string -> Response): set<string>
  {
    set c, f | c in codes && f in SavedName(c, sourcesOf(Get(mapping, c)), fetch) :: f
  }

  lemma {:induction false} SavedNamesWithin(order: seq<string>, n: nat, codes: set<string>,
                                            mapping: string -> Option<string>,
                                            sourcesOf: string -> seq<string>, fetch: string -> Response)
    requires n <= |order|
    requires forall j :: 0 <= j < n ==> order[j] in codes
    ensures SavedNames(order, n, mapping, sourcesOf, fetch) <= SavedFor(codes, mapping, sourcesOf, fetch)
    decreases n
  {
    if n > 0 {
      SavedNamesWithin(order, n - 1, codes, mapping, sourcesOf, fetch);
      var c := order[n - 1];
      forall f | f in SavedName(c, sourcesOf(Get(mapping, c)), fetch)
        ensures f in SavedFor(codes, mapping, sourcesOf, fetch)
      {
        assert c in codes;
      }
    }
  }

  /** The smallest code of a non-empty set, in Python's string order. */
  method Least(codes: set<string>) returns (m: string)
    requires codes != {}
    ensures m in codes
    ensures forall c :: c in codes ==> LexLe(m, c)
  {
    m :| m in codes;
    var rest := codes - {m};
    LexLeTotal(m, m);
    while rest != {}
      invariant m in codes && rest <= codes
      invariant forall c :: c in codes && c !in rest ==> LexLe(m, c)
      decreases rest
    {
      var c :| c in rest;
      LexLeTotal(m, c);
      if !LexLe(m, c) {
        LexLeTotal(c, c);
        forall d | d in codes && d !in rest
          ensures LexLe(c, d)
        {
          LexLeTransitive(c, m, d);
        }
        m := c;
      }
      rest := rest - {c};
    }
  }

  /** `sorted(countries)`: every code once, in ascending order. */
  method SortedCodes(codes: set<string>) returns (order: seq<string>)
    ensures |order| == |codes|
    ensures forall c :: c in order <==> c in codes
    ensures forall i, j :: 0 <= i < j < |order| ==> LexLe(order[i], order[j]) && order[i] != order[j]
  {
    order := [];
    var rest := codes;
    while rest != {}
      invariant rest <= codes
      invariant |order| + |rest| == |codes|
      invariant forall c :: c in codes <==> c in order || c in rest
      invariant forall c :: c in order ==> c !in rest
      invariant forall i, j :: 0 <= i < j < |order| ==> LexLe(order[i], order[j]) && order[i] != order[j]
      invariant forall i, c :: 0 <= i < |order| && c in rest ==> LexLe(order[i], c)
      decreases rest
    {
      var m := Least(rest);
      forall i, c | 0 <= i < |order| && c in rest - {m}
        ensures LexLe(order[i], c)
      {
      }
      order := order + [m];
      rest := rest - {m};
    }
  }

  /**
   * How a run of the downloader ends. A failed download calls the flag fallback,
   * which is not defined (its definition is commented out), so the run stops there
   * with a NameError.
   */
  datatype RunResult = NoCountries | Finished(successful: nat) | Crashed(code: string, successful: nat)

  /**
   * The loop of main over the sorted codes: each code's flag is downloaded from the
   * sources `sourcesOf` gives for the ISO code the mapping gives it, and the first
   * failure stops the run.
   */
  method DownloadInOrder(order: seq<string>, mapping: string -> Option<string>,
                         sourcesOf: string -> seq<string>, files: set<string>, fetch: string -> Response)
    returns (result: RunResult, files': set<string>)
    ensures files <= files'
    ensures !result.NoCountries?
    ensures result.Finished? ==> result.successful == |order|
    ensures result.Finished? ==> forall j :: 0 <= j < |order| ==> HasFlag(files', order[j])
    ensures result.Crashed? ==> result.successful < |order| && result.code == order[result.successful]
    ensures result.Crashed? ==> !HasFlag(files', result.code)
    ensures result.Crashed? ==> forall j :: 0 <= j < result.successful ==> HasFlag(files', order[j])
    ensures result.Crashed? ==> FirstUsable(sourcesOf(Get(mapping, result.code)), fetch).None?
    ensures files' - files <= SavedNames(order, |order|, mapping, sourcesOf, fetch)
    ensures result.Crashed? ==> files' - files <= SavedNames(order, result.successful + 1, mapping, sourcesOf, fetch)
  {
    files' := files;
    var successful := 0;
    while successful < |order|
      invariant successful <= |order|
      invariant files <= files'
      invariant forall j :: 0 <= j < successful ==> HasFlag(files', order[j])
      invariant files' - files <= SavedNames(order, successful, mapping, sourcesOf, fetch)
    {
      var code := order[successful];
      var ok, requested;
      ghost var before := files';
      ok, files', requested := DownloadFlag(code, sourcesOf(Get(mapping, code)), files', fetch);
      SavedNamesStep(files, before, files', order, successful, mapping, sourcesOf, fetch);
      if !ok {
        SavedNamesGrow(order, successful + 1, |order|, mapping, sourcesOf, fetch);
        return Crashed(code, successful), files';
      }
      FlaggedExtend(order, successful, [], [], before, files');
      successful := successful + 1;
    }
    return Finished(successful), files';
  }

  /** The codes of `codes` that sort at or before `last`. */
  ghost function CodesUpTo(codes: set<string>, last: string): set<string>
  {
    set c | c in codes && LexLe(c, last)
  }

  /**
   * In a strictly ascending order of `codes`, the codes that sort before `order[n]`
   * are exactly those at positions before n, so if those have flags, so do they.
   */
  lemma EarlierCodesFlagged(order: seq<string>, codes: set<string>, n: nat, files: set<string>)
    requires n < |order|
    requires forall c :: c in order <==> c in codes
    requires forall i, j :: 0 <= i < j < |order| ==> LexLe(order[i], order[j]) && order[i] != order[j]
    requires forall j :: 0 <= j < n ==> HasFlag(files, order[j])
    ensures forall c :: c in codes && LexLe(c, order[n]) && c != order[n] ==> HasFlag(files, c)
  {
    forall c | c in codes && LexLe(c, order[n]) && c != order[n]
      ensures HasFlag(files, c)
    {
      var j :| 0 <= j < |order| && order[j] == c;
      if j > n {
        LexLeAntisymmetric(c, order[n]);
        assert false;
      }
    }
  }

  /**
   * What the first n + 1 codes of an ascending order may save lies within what the
   * codes sorting at or before `order[n]` may save.
   */
  lemma PrefixSavesUpTo(order: seq<string>, codes: set<string>, n: nat, files: set<string>, files': set<string>,
                        mapping: string -> Option<string>,
                        sourcesOf: string -> seq<string>, fetch: string -> Response)
    requires n < |order|
    requires forall c :: c in order <==> c in codes
    requires forall i, j :: 0 <= i < j < |order| ==> LexLe(order[i], order[j]) && order[i] != order[j]
    requires files' - files <= SavedNames(order, n + 1, mapping, sourcesOf, fetch)
    ensures files' - files <= SavedFor(CodesUpTo(codes, order[n]), mapping, sourcesOf, fetch)
  {
    LexLeTotal(order[n], order[n]);
    SavedNamesWithin(order, n + 1, CodesUpTo(codes, order[n]), mapping, sourcesOf, fetch);
  }

  /**
   * main: the codes of the player list, in sorted order, each downloaded once; an
   * empty list ends the run before anything is requested. A crash happens at the
   * first code in sorted order that gets no flag: every code before it has one, and
   * no code after it was tried.
   */
  method DownloadAll(file: PlayerFile, files: set<string>, fetch: string -> Response)
    returns (result: RunResult, files': set<string>)
    ensures files <= files'
    ensures result == NoCountries <==> Countries(file) == {}
    ensures result == NoCountries ==> files' == files
    ensures result.Finished? ==> result.successful == |Countries(file)|
    ensures result.Finished? ==> forall c :: c in Countries(file) ==> HasFlag(files', c)
    ensures result.Crashed? ==> result.code in Countries(file) && result.successful < |Countries(file)|
    ensures result.Crashed? ==> !HasFlag(files', result.code)
    ensures result.Crashed? ==> FirstUsable(FlagSources(Get(IsoMapping, result.code)), fetch).None?
    ensures files' - files <= SavedFor(Countries(file), IsoMapping, FlagSources, fetch)
    ensures result.Crashed? ==> forall c :: c in Countries(file) && LexLe(c, result.code) && c != result.code ==> HasFlag(files', c)
    ensures result.Crashed? ==>
              files' - files <= SavedFor(CodesUpTo(Countries(file), result.code), IsoMapping, FlagSources, fetch)
  {
    var countries := LoadPlayerCountries(file);
    if countries == {} {
      return NoCountries, files;
    }
    var order := SortedCodes(countries);
    result, files' := DownloadInOrder(order, IsoMapping, FlagSources, files, fetch);
    SavedNamesWithin(order, |order|, countries, IsoMapping, FlagSources, fetch);
    if result.Crashed? {
      EarlierCodesFlagged(order, countries, result.successful, files');
      PrefixSavesUpTo(order, countries, result.successful, files, files', IsoMapping, FlagSources, fetch);
    }
    if result.Finished? {
      forall c | c in countries ensures HasFlag(files', c) {
        var j :| 0 <= j < |order| && order[j] == c;
      }
    }
  }

  /** A network on which every request raises. */
  function Offline(url: string): Response
  {
    Raises
  }

  /** With every request raising, no code can have a file saved. */
  lemma OfflineSavesNothing(codes: set<string>, mapping: string -> Option<string>,
                            sourcesOf: string -> seq<string>)
    ensures SavedFor(codes, mapping, sourcesOf, Offline) == {}
  {
    forall c | c in codes
      ensures SavedName(c, sourcesOf(Get(mapping, c)), Offline) == {}
    {
      SavedNameIsFirstUsable(c, sourcesOf(Get(mapping, c)), Offline);
    }
  }

  /** A list with one player from Spain has the one code "ESP". */
  lemma OneCountry()
    ensures Countries(Players([PlayerEntry(Some("ESP"))])) == {"ESP"}
  {
    var spain := PlayerEntry(Some("ESP"));
    CountrySetExtend([], spain);
    assert [] + [spain] == [spain];
    assert Upper("ESP") == "ESP";
  }

  /**
   * The run as written, on one player from Spain with the network down: the flag
   * download fails and main stops at "ESP" before counting it, with nothing saved.
   */
  method OfflineRunCrashes() returns (result: RunResult, files': set<string>)
    ensures result == Crashed("ESP", 0) && files' == {}
  {
    var file := Players([PlayerEntry(Some("ESP"))]);
    OneCountry();
    result, files' := DownloadAll(file, {}, Offline);
    OfflineSavesNothing(Countries(file), IsoMapping, FlagSources);
    assert files' == {};
    assert !HasFlag(files', "ESP");
    assert result.Crashed?;
  }

  /** The codes among the first i stay among the first i + 1. */
  lemma PrefixGrows(order: seq<string>, i: nat, failed: seq<string>)
    requires i < |order|
    requires forall c :: c in failed ==> c in order[..i]
    ensures forall c :: c in failed ==> c in order[..i + 1]
  {
    assert order[..i + 1] == order[..i] + [order[i]];
  }

  /** A code recorded as failed had no usable source, like those before it. */
  lemma UnusableExtend(failed: seq<string>, code: string, mapping: string -> Option<string>,
                       sourcesOf: string -> seq<string>, fetch: string -> Response)
    requires forall c :: c in failed ==> FirstUsable(sourcesOf(Get(mapping, c)), fetch).None?
    requires FirstUsable(sourcesOf(Get(mapping, code)), fetch).None?
    ensures forall c :: c in failed + [code] ==> FirstUsable(sourcesOf(Get(mapping, c)), fetch).None?
  {
  }

  /** Recording a new code as failed keeps the failed codes distinct and among the codes done. */
  lemma RecordFailure(order: seq<string>, i: nat, failed: seq<string>)
    requires i < |order|
    requires forall a, b :: 0 <= a < b < |order| ==> order[a] != order[b]
    requires forall c :: c in failed ==> c in order[..i]
    requires forall a, b :: 0 <= a < b < |failed| ==> failed[a] != failed[b]
    ensures forall c :: c in failed + [order[i]] ==> c in order[..i + 1]
    ensures forall a, b :: 0 <= a < b < |failed| + 1 ==> (failed + [order[i]])[a] != (failed + [order[i]])[b]
  {
    assert order[..i + 1] == order[..i] + [order[i]];
    assert order[i] !in order[..i];
  }

  /**
   * The loop of main as its summary reads: a failed download is recorded and the
   * loop goes on with the next code.
   */
  method DownloadInOrderReportingFailures(order: seq<string>, mapping: string -> Option<string>,
                                          sourcesOf: string -> seq<string>, files: set<string>, fetch: string -> Response)
    returns (successful: nat, failed: seq<string>, files': set<string>)
    requires forall a, b :: 0 <= a < b < |order| ==> order[a] != order[b]
    ensures files <= files'
    ensures successful + |failed| == |order|
    ensures forall c :: c in failed ==> c in order
    ensures forall a, b :: 0 <= a < b < |failed| ==> failed[a] != failed[b]
    ensures forall c :: c in order && c !in failed ==> HasFlag(files', c)
    ensures forall c :: c in failed ==> FirstUsable(sourcesOf(Get(mapping, c)), fetch).None?
    ensures files' - files <= SavedNames(order, |order|, mapping, sourcesOf, fetch)
  {
    files' := files;
    successful, failed := 0, [];
    var i := 0;
    while i < |order|
      invariant 0 <= i <= |order|
      invariant successful + |failed| == i
      invariant files <= files'
      invariant forall c :: c in failed ==> c in order[..i]
      invariant forall a, b :: 0 <= a < b < |failed| ==> failed[a] != failed[b]
      invariant forall j :: 0 <= j < i && order[j] !in failed ==> HasFlag(files', order[j])
      invariant forall c :: c in failed ==> FirstUsable(sourcesOf(Get(mapping, c)), fetch).None?
      invariant files' - files <= SavedNames(order, |order|, mapping, sourcesOf, fetch)
    {
      var code := order[i];
      var ok, requested;
      ghost var before := files';
      ok, files', requested := DownloadFlag(code, sourcesOf(Get(mapping, code)), files', fetch);
      SavedWithinAll(files, before, files', order, i, mapping, sourcesOf, fetch);
      if ok {
        ReportSuccess(order, i, failed, before, files');
        successful := successful + 1;
      } else {
        ReportFailure(order, i, failed, files', mapping, sourcesOf, fetch);
        failed := failed + [code];
      }
      i := i + 1;
    }
    ReportDone(order, failed, files');
  }

  /**
   * One code of the reporting loop downloaded: the facts the loop keeps about the
   * failed codes and the flags hold one code further.
   */
  lemma ReportSuccess(order: seq<string>, i: nat, failed: seq<string>, files: set<string>, files': set<string>)
    requires i < |order| && files <= files'
    requires forall c :: c in failed ==> c in order[..i]
    requires forall j :: 0 <= j < i && order[j] !in failed ==> HasFlag(files, order[j])
    requires HasFlag(files', order[i])
    ensures forall c :: c in failed ==> c in order[..i + 1]
    ensures forall j :: 0 <= j < i + 1 && order[j] !in failed ==> HasFlag(files', order[j])
  {
    FlaggedExtend(order, i, failed, failed, files, files');
    PrefixGrows(order, i, failed);
  }

  /**
   * One code of the reporting loop recorded as failed: the facts the loop keeps about
   * the failed codes and the flags hold one code further.
   */
  lemma ReportFailure(order: seq<string>, i: nat, failed: seq<string>, files: set<string>,
                      mapping: string -> Option<string>, sourcesOf: string -> seq<string>, fetch: string -> Response)
    requires i < |order|
    requires forall a, b :: 0 <= a < b < |order| ==> order[a] != order[b]
    requires forall c :: c in failed ==> c in order[..i]
    requires forall a, b :: 0 <= a < b < |failed| ==> failed[a] != failed[b]
    requires forall j :: 0 <= j < i && order[j] !in failed ==> HasFlag(files, order[j])
    requires forall c :: c in failed ==> FirstUsable(sourcesOf(Get(mapping, c)), fetch).None?
    requires FirstUsable(sourcesOf(Get(mapping, order[i])), fetch).None?
    ensures forall c :: c in failed + [order[i]] ==> c in order[..i + 1]
    ensures forall a, b :: 0 <= a < b < |failed| + 1 ==> (failed + [order[i]])[a] != (failed + [order[i]])[b]
    ensures forall j :: 0 <= j < i + 1 && order[j] !in failed + [order[i]] ==> HasFlag(files, order[j])
    ensures forall c :: c in failed + [order[i]] ==> FirstUsable(sourcesOf(Get(mapping, c)), fetch).None?
  {
    FlaggedExtend(order, i, failed, failed + [order[i]], files, files);
    RecordFailure(order, i, failed);
    UnusableExtend(failed, order[i], mapping, sourcesOf, fetch);
  }

  /** The reporting loop's facts over all of `order` are its postconditions. */
  lemma ReportDone(order: seq<string>, failed: seq<string>, files: set<string>)
    requires forall c :: c in failed ==> c in order[..|order|]
    requires forall j :: 0 <= j < |order| && order[j] !in failed ==> HasFlag(files, order[j])
    ensures forall c :: c in failed ==> c in order
    ensures forall c :: c in order && c !in failed ==> HasFlag(files, c)
  {
    assert order[..|order|] == order;
  }

  /**
   * main as its summary reads: every code of the player list is either downloaded
   * or reported once as failed.
   */
  method DownloadAllReportingFailures(file: PlayerFile, files: set<string>, fetch: string -> Response)
    returns (successful: nat, failed: seq<string>, files': set<string>)
    ensures files <= files'
    ensures successful + |failed| == |Countries(file)|
    ensures forall c :: c in failed ==> c in Countries(file)
    ensures forall i, j :: 0 <= i < j < |failed| ==> failed[i] != failed[j]
    ensures forall c :: c in Countries(file) && c !in failed ==> HasFlag(files', c)
    ensures forall c :: c in failed ==> FirstUsable(FlagSources(Get(IsoMapping, c)), fetch).None?
    ensures files' - files <= SavedFor(Countries(file), IsoMapping, FlagSources, fetch)
  {
    var countries := LoadPlayerCountries(file);
    if countries == {} {
      return 0, [], files;
    }
    var order := SortedCodes(countries);
    successful, failed, files' := DownloadInOrderReportingFailures(order, IsoMapping, FlagSources, files, fetch);
    SavedNamesWithin(order, |order|, countries, IsoMapping, FlagSources, fetch);
  }
}

=== FILE: images.dfy ===
/**
 * The player photo downloader (image_loader.py). Every web request is an oracle
 * given in a Wiki value: what the Wikidata, Wikipedia REST and MediaWiki endpoints
 * answer, and what each download attempt of a URL brings. The output directory is
 * the set of file names it holds. The methods also return the requests they make
 * in order, so that the order in which the image sources are tried is stated.
 */
module Images {
  import opened Common
  import opened Text

  // ---------------------------------------------------------------------------
  // Player records and file names
  // ---------------------------------------------------------------------------

  /** One entry of player_list.json; a key may be missing. */
  datatype PlayerRecord = PlayerRecord(playerId: Option<int>, playerName: Option<string>,
                                       wikimediaId: Option<string>)

  /** All of player_id, player_name and wikimedia_id are present. */
  predicate HasRequiredFields(p: PlayerRecord)
  {
    p.playerId.Some? && p.playerName.Some? && p.wikimediaId.Some?
  }

  /** The photo of a player is stored under its player id, not its name. */
  function FileName(playerId: int): (name: string)
    ensures HasSuffix(name, ".jpg")
    ensures name[0] == '-' <==> playerId < 0
  {
    var name := DecimalString(playerId) + ".jpg";
    assert name[|name| - 4..] == ".jpg";
    name
  }

  /** Two players never share a photo file. */
  lemma FileNameInjective(a: int, b: int)
    requires FileName(a) == FileName(b)
    ensures a == b
  {
    var na, nb := FileName(a), FileName(b);
    assert DecimalString(a) == na[..|na| - 4];
    assert DecimalString(b) == nb[..|nb| - 4];
    DecimalStringInjective(a, b);
  }

  // ---------------------------------------------------------------------------
  // What the web services answer
  // ---------------------------------------------------------------------------

  /** The mainsnak of a claim and the value of its datavalue, when present. */
  datatype Claim = Claim(mainsnak: Option<Option<string>>)

  /** An entity of a wbgetentities answer, with the parts asked for. */
  datatype Entity = Entity(claims: Option<map<string, seq<Claim>>>,
                           sitelinks: Option<map<string, string>>)

  /** A wbgetentities answer; RequestFailed stands for any raised exception. */
  datatype EntitiesAnswer = RequestFailed | Entities(entities: map<string, Entity>)

  /** A REST page summary: the sources of its originalimage and thumbnail. */
  datatype Summary = SummaryFailed | Summary(originalImage: Option<string>, thumbnail: Option<string>)

  /** A pageimages query: each page's thumbnail source, in the order of the pages. */
  datatype PageImages = QueryFailed | Pages(thumbnails: seq<Option<string>>)

  /** One try of a download: it raises, is not an image, or writes a file of some size. */
  datatype Attempt = Raises | NotImage | Written(size: nat)

  datatype Wiki = Wiki(claims: string -> EntitiesAnswer,
                       sitelinks: string -> EntitiesAnswer,
                       summary: string -> Summary,
                       pageImages: string -> PageImages,
                       download: string -> nat -> Attempt)

  datatype Request =
    | ClaimsLookup(wikidataId: string)
    | SitelinksLookup(wikidataId: string)
    | SummaryLookup(title: string)
    | PageImagesLookup(title: string)
    | Download(url: string)

  /** Python's truth value of a string result: present and not empty. */
  predicate Truthy(s: Option<string>)
  {
    s.Some? && s.value != ""
  }

  // ---------------------------------------------------------------------------
  // Image sources
  // ---------------------------------------------------------------------------

  const CommonsFilePath := "https://commons.wikimedia.org/wiki/Special:FilePath/"

  /** The Commons address of a file, with every space written as an underscore. */
  function CommonsUrl(filename: string): (url: string)
    ensures HasPrefix(url, CommonsFilePath)
    ensures |url| == |CommonsFilePath| + |filename|
    ensures forall k :: 0 <= k < |filename| ==>
              url[|CommonsFilePath| + k] == (if filename[k] == ' ' then '_' else filename[k])
    ensures ' ' !in url[|CommonsFilePath|..]
  {
    var tail := ReplaceChar(filename, ' ', '_');
    var url := CommonsFilePath + tail;
    assert url[..|CommonsFilePath|] == CommonsFilePath;
    assert forall k :: 0 <= k < |tail| ==> url[|CommonsFilePath| + k] == tail[k];
    assert url[|CommonsFilePath|..] == tail;
    url
  }

  /** The file named by the first P18 (image) claim of the entity, if it carries one. */
  function P18File(answer: EntitiesAnswer, wikidataId: string): Option<string>
  {
    if answer.Entities? && wikidataId in answer.entities
       && answer.entities[wikidataId].claims.Some?
       && "P18" in answer.entities[wikidataId].claims.value
    then
      var images := answer.entities[wikidataId].claims.value["P18"];
      if images != [] && images[0].mainsnak.Some? then images[0].mainsnak.value else None
    else None
  }

  /** get_image_from_wikidata_direct: the Commons address of the entity's P18 image. */
  function DirectImage(answer: EntitiesAnswer, wikidataId: string): (url: Option<string>)
    ensures url.Some? <==> P18File(answer, wikidataId).Some?
    ensures url.Some? ==> url.value == CommonsUrl(P18File(answer, wikidataId).value) && Truthy(url)
  {
    match P18File(answer, wikidataId)
    case Some(f) => Some(CommonsUrl(f))
    case None => None
  }

  /** get_wikipedia_page_from_wikidata: the English Wikipedia title of the entity. */
  function PageTitle(answer: EntitiesAnswer, wikidataId: string): (title: Option<string>)
    ensures title.Some? <==> answer.Entities? && wikidataId in answer.entities
                             && answer.entities[wikidataId].sitelinks.Some?
                             && "enwiki" in answer.entities[wikidataId].sitelinks.value
  {
    if answer.Entities? && wikidataId in answer.entities
       && answer.entities[wikidataId].sitelinks.Some?
       && "enwiki" in answer.entities[wikidataId].sitelinks.value
    then Some(answer.entities[wikidataId].sitelinks.value["enwiki"])
    else None
  }

  /** The position of the first present value. */
  function FirstPresent(xs: seq<Option<string>>): (r: Option<nat>)
    ensures r.Some? ==> r.value < |xs| && xs[r.value].Some?
                        && forall j :: 0 <= j < r.value ==> xs[j].None?
    ensures r.None? ==> forall j :: 0 <= j < |xs| ==> xs[j].None?
  {
    if xs == [] then None
    else if xs[0].Some? then Some(0)
    else match FirstPresent(xs[1..])
         case Some(k) => Some(k + 1)
         case None => None
  }

  /** The image address found for a page, and the requests made to find it. */
  datatype Lookup = Lookup(url: Option<string>, requests: seq<Request>)

  /**
   * get_main_image_from_wikipedia: the summary's original image, else its thumbnail;
   * only when the summary gives neither are the page images asked for, and then
   * the first page that has a thumbnail wins.
   */
  function MainImage(w: Wiki, title: string): (r: Lookup)
    ensures 1 <= |r.requests| <= 2 && r.requests[0] == SummaryLookup(title)
    ensures w.summary(title).Summary? && w.summary(title).originalImage.Some? ==>
              r.url == w.summary(title).originalImage && |r.requests| == 1
    ensures w.summary(title).Summary? && w.summary(title).originalImage.None?
            && w.summary(title).thumbnail.Some? ==>
              r.url == w.summary(title).thumbnail && |r.requests| == 1
    ensures |r.requests| == 2 <==> !(w.summary(title).Summary?
                                     && (w.summary(title).originalImage.Some? || w.summary(title).thumbnail.Some?))
    ensures |r.requests| == 2 ==> r.requests[1] == PageImagesLookup(title)
    ensures |r.requests| == 2 && r.url.Some? ==>
              w.pageImages(title).Pages? && r.url in w.pageImages(title).thumbnails
    ensures |r.requests| == 2 ==>
              r.url == (if w.pageImages(title).Pages? && FirstPresent(w.pageImages(title).thumbnails).Some?
                        then w.pageImages(title).thumbnails[FirstPresent(w.pageImages(title).thumbnails).value]
                        else None)
  {
    var s := w.summary(title);
    if s.Summary? && s.originalImage.Some? then Lookup(s.originalImage, [SummaryLookup(title)])
    else if s.Summary? && s.thumbnail.Some? then Lookup(s.thumbnail, [SummaryLookup(title)])
    else
      var requests := [SummaryLookup(title), PageImagesLookup(title)];
      match w.pageImages(title)
      case QueryFailed => Lookup(None, requests)
      case Pages(thumbnails) =>
        match FirstPresent(thumbnails)
        case Some(k) => Lookup(thumbnails[k], requests)
        case None => Lookup(None, requests)
  }

  /**
   * The address process_player downloads from: the Wikidata image first; the
   * Wikipedia page is looked up only when that gives none.
   */
  function FindImageUrl(w: Wiki, wikidataId: string): (r: Lookup)
    ensures |r.requests| >= 1 && r.requests[0] == ClaimsLookup(wikidataId)
    ensures DirectImage(w.claims(wikidataId), wikidataId).Some? ==>
              r.url == DirectImage(w.claims(wikidataId), wikidataId) && |r.requests| == 1
    ensures DirectImage(w.claims(wikidataId), wikidataId).None? ==>
              |r.requests| >= 2 && r.requests[1] == SitelinksLookup(wikidataId)
    ensures !Truthy(PageTitle(w.sitelinks(wikidataId), wikidataId))
            && DirectImage(w.claims(wikidataId), wikidataId).None? ==>
              r.url.None? && |r.requests| == 2
    ensures DirectImage(w.claims(wikidataId), wikidataId).None?
            && Truthy(PageTitle(w.sitelinks(wikidataId), wikidataId)) ==>
              r.url == MainImage(w, PageTitle(w.sitelinks(wikidataId), wikidataId).value).url
              && r.requests == [ClaimsLookup(wikidataId), SitelinksLookup(wikidataId)]
                               + MainImage(w, PageTitle(w.sitelinks(wikidataId), wikidataId).value).requests
  {
    var direct := DirectImage(w.claims(wikidataId), wikidataId);
    if Truthy(direct) then Lookup(direct, [ClaimsLookup(wikidataId)])
    else
      var title := PageTitle(w.sitelinks(wikidataId), wikidataId);
      var requests := [ClaimsLookup(wikidataId), SitelinksLookup(wikidataId)];
      if Truthy(title) then
        var main := MainImage(w, title.value);
        Lookup(main.url, requests + main.requests)
      else Lookup(direct, requests)
  }

  // ---------------------------------------------------------------------------
  // Downloading (download_image)
  // ---------------------------------------------------------------------------

  const MaxRetries: nat := 3

  function Pow2(n: nat): (r: nat)
    ensures r >= 1
  {
    if n == 0 then 1 else 2 * Pow2(n - 1)
  }

  /** A try that ends the loop with a photo on disk: an image with content. */
  predicate Good(a: Attempt)
  {
    a.Written? && a.size > 0
  }

  /** The first try, from the k-th on, that does not raise, if one of the allowed tries does. */
  function DecisiveFrom(attempt: nat -> Attempt, k: nat): (r: Option<nat>)
    ensures r.Some? ==> k <= r.value < MaxRetries && attempt(r.value) != Raises
                        && forall j :: k <= j < r.value ==> attempt(j) == Raises
    ensures r.None? ==> forall j :: k <= j < MaxRetries ==> attempt(j) == Raises
    decreases MaxRetries - k
  {
    if k >= MaxRetries then None
    else if attempt(k) != Raises then Some(k)
    else DecisiveFrom(attempt, k + 1)
  }

  function Decisive(attempt: nat -> Attempt): Option<nat>
  {
    DecisiveFrom(attempt, 0)
  }

  /** Whether the download reports success. */
  predicate Downloaded(attempt: nat -> Attempt)
  {
    Decisive(attempt).Some? && Good(attempt(Decisive(attempt).value))
  }

  /** Whether a file is left on disk: the try that wrote it may have written nothing. */
  predicate LeavesFile(attempt: nat -> Attempt)
  {
    Decisive(attempt).Some? && attempt(Decisive(attempt).value).Written?
  }

  /**
   * download_image: up to MaxRetries tries; a try that is not an image or writes an
   * empty file ends the loop at once, and a failed try is followed by a sleep of
   * 2^attempt seconds unless it was the last.
   */
  method DownloadImage(attempt: nat -> Attempt) returns (ok: bool, tries: nat, sleeps: seq<nat>)
    ensures 1 <= tries <= MaxRetries
    ensures forall j :: 0 <= j < tries - 1 ==> attempt(j) == Raises
    ensures tries < MaxRetries ==> attempt(tries - 1) != Raises
    ensures ok <==> Good(attempt(tries - 1))
    ensures ok <==> Downloaded(attempt)
    ensures attempt(tries - 1).Written? <==> LeavesFile(attempt)
    ensures |sleeps| == tries - 1
    ensures forall j :: 0 <= j < |sleeps| ==> sleeps[j] == Pow2(j)
  {
    sleeps := [];
    var k := 0;
    while k < MaxRetries
      invariant 0 <= k <= MaxRetries
      invariant forall j :: 0 <= j < k ==> attempt(j) == Raises
      invariant |sleeps| == if k < MaxRetries then k else MaxRetries - 1
      invariant forall j :: 0 <= j < |sleeps| ==> sleeps[j] == Pow2(j)
      invariant DecisiveFrom(attempt, k) == Decisive(attempt)
    {
      var a := attempt(k);
      if a != Raises {
        return Good(a), k + 1, sleeps;
      }
      if k < MaxRetries - 1 {
        sleeps := sleeps + [Pow2(k)];
      }
      k := k + 1;
    }
    return false, MaxRetries, sleeps;
  }

  // ---------------------------------------------------------------------------
  // One player (process_player)
  // ---------------------------------------------------------------------------

  /** What process_player reports, and the directory afterwards. */
  function PlayerOutcome(playerId: int, wikidataId: string, files: set<string>, w: Wiki): (bool, set<string>)
  {
    if FileName(playerId) in files then (true, files)
    else
      var url := FindImageUrl(w, wikidataId).url;
      if !Truthy(url) then (false, files)
      else
        var attempt := w.download(url.value);
        (Downloaded(attempt), if LeavesFile(attempt) then files + {FileName(playerId)} else files)
  }

  /** A reported success always leaves the player's photo in the directory, and nothing else is added. */
  lemma PlayerOutcomeFiles(playerId: int, wikidataId: string, files: set<string>, w: Wiki)
    ensures PlayerOutcome(playerId, wikidataId, files, w).0 ==>
              FileName(playerId) in PlayerOutcome(playerId, wikidataId, files, w).1
    ensures PlayerOutcome(playerId, wikidataId, files, w).1 - files <= {FileName(playerId)}
    ensures files <= PlayerOutcome(playerId, wikidataId, files, w).1
  {
  }

  method ProcessPlayer(playerId: int, wikidataId: string, files: set<string>, w: Wiki)
    returns (ok: bool, files': set<string>, requests: seq<Request>)
    ensures (ok, files') == PlayerOutcome(playerId, wikidataId, files, w)
    ensures FileName(playerId) in files ==> ok && requests == []
    ensures FileName(playerId) !in files ==>
              var lookup := FindImageUrl(w, wikidataId);
              && |lookup.requests| <= |requests|
              && requests[..|lookup.requests|] == lookup.requests
              && (!Truthy(lookup.url) ==> !ok && requests == lookup.requests)
              && (Truthy(lookup.url) ==>
                    |lookup.requests| < |requests| <= |lookup.requests| + MaxRetries
                    && forall k :: |lookup.requests| <= k < |requests| ==> requests[k] == Download(lookup.url.value))
  {
    var filename := FileName(playerId);
    if filename in files {
      return true, files, [];
    }
    var lookup := FindImageUrl(w, wikidataId);
    requests := lookup.requests;
    if !Truthy(lookup.url) {
      return false, files, requests;
    }
    var tries, sleeps;
    ok, tries, sleeps := DownloadImage(w.download(lookup.url.value));
    requests := requests + seq(tries, _ => Download(lookup.url.value));
    files' := if w.download(lookup.url.value)(tries - 1).Written? then files + {filename} else files;
  }

  // ---------------------------------------------------------------------------
  // The batch (run)
  // ---------------------------------------------------------------------------

  /** The player list: absent, not JSON, JSON but not a list, or a list of records. */
  datatype PlayerList = ListMissing | Unreadable | NotAList | Players(records: seq<PlayerRecord>)

  /**
   * How run counts one record: incomplete records fail without any request, a
   * photo already on disk is skipped, and otherwise process_player decides.
   */
  function Classify(p: PlayerRecord, files: set<string>, w: Wiki): (v: Verdict)
    ensures !HasRequiredFields(p) ==> v == Failed
    ensures HasRequiredFields(p) ==>
              (v == Skipped <==> FileName(p.playerId.value) in files)
    ensures HasRequiredFields(p) && FileName(p.playerId.value) !in files ==>
              (v == Succeeded <==> PlayerOutcome(p.playerId.value, p.wikimediaId.value, files, w).0)
  {
    if !HasRequiredFields(p) then Failed
    else if FileName(p.playerId.value) in files then Skipped
    else if PlayerOutcome(p.playerId.value, p.wikimediaId.value, files, w).0 then Succeeded
    else Failed
  }

  /** One iteration of run's loop. */
  function Step(b: Progress, p: PlayerRecord, w: Wiki): Progress
  {
    var v := Classify(p, b.files, w);
    Progress(b.tally.Record(v),
             if v == Skipped || !HasRequiredFields(p) then b.files
             else PlayerOutcome(p.playerId.value, p.wikimediaId.value, b.files, w).1)
  }

  /** The counters and the directory after the given records, in order. */
  function RunDownloads(records: seq<PlayerRecord>, files: set<string>, w: Wiki): Progress
    decreases |records|
  {
    if records == [] then Progress(NoneCounted, files)
    else Step(RunDownloads(records[..|records| - 1], files, w), records[|records| - 1], w)
  }

  /** A photo that run downloads is found on disk, and skipped, by the next run. */
  lemma {:induction false} DownloadedThenSkipped(b: Progress, p: PlayerRecord, w: Wiki)
    requires Classify(p, b.files, w) == Succeeded
    ensures Classify(p, Step(b, p, w).files, w) == Skipped
  {
    PlayerOutcomeFiles(p.playerId.value, p.wikimediaId.value, b.files, w);
  }

  /** Every record lands in exactly one counter, and files are only ever added. */
  lemma {:induction false} RunDownloadsCounts(records: seq<PlayerRecord>, files: set<string>, w: Wiki)
    ensures RunDownloads(records, files, w).tally.Total() == |records|
    ensures files <= RunDownloads(records, files, w).files
    decreases |records|
  {
    if records != [] {
      var init := records[..|records| - 1];
      RunDownloadsCounts(init, files, w);
      var b := RunDownloads(init, files, w);
      var p := records[|records| - 1];
      if HasRequiredFields(p) {
        PlayerOutcomeFiles(p.playerId.value, p.wikimediaId.value, b.files, w);
      }
    }
  }

  /** run: nothing is counted unless the list loads as a list; then one pass over it. */
  method Run(list: PlayerList, files: set<string>, w: Wiki) returns (tally: Option<Tally>, files': set<string>)
    ensures !list.Players? ==> tally == None && files' == files
    ensures list.Players? ==> tally == Some(RunDownloads(list.records, files, w).tally)
                              && files' == RunDownloads(list.records, files, w).files
    ensures list.Players? ==> tally.value.Total() == |list.records|
  {
    files' := files;
    if !list.Players? {
      return None, files';
    }
    var players := list.records;
    var successful, failed, skipped := 0, 0, 0;
    var i := 0;
    while i < |players|
      invariant 0 <= i <= |players|
      invariant Progress(Tally(successful, failed, skipped), files') == RunDownloads(players[..i], files, w)
    {
      var player := players[i];
      assert players[..i + 1][..i] == players[..i];
      if !HasRequiredFields(player) {
        failed := failed + 1;
      } else if FileName(player.playerId.value) in files' {
        skipped := skipped + 1;
      } else {
        var success, requests;
        success, files', requests := ProcessPlayer(player.playerId.value, player.wikimediaId.value, files', w);
        if success {
          successful := successful + 1;
        } else {
          failed := failed + 1;
        }
      }
      i := i + 1;
    }
    assert players[..i] == players;
    RunDownloadsCounts(players, files, w);
    return Some(Tally(successful, failed, skipped)), files';
  }
}

=== FILE: text.dfy ===
/**
 * String helpers used by the scripts: ASCII case mapping (Python's str.upper and
 * str.lower restricted to ASCII), prefix and suffix tests, Python's ordering of
 * strings, str(int) and str.replace on a single character, and str.rfind.
 */
module Text {

  function UpperChar(c: char): char
  {
    if 'a' <= c <= 'z' then (c as int - 32) as char else c
  }

  function LowerChar(c: char): char
  {
    if 'A' <= c <= 'Z' then (c as int + 32) as char else c
  }

  /** str.upper(), on the ASCII letters. */
  function Upper(s: string): (r: string)
    ensures |r| == |s|
    ensures forall i :: 0 <= i < |s| ==> r[i] == UpperChar(s[i])
  {
    seq(|s|, i requires 0 <= i < |s| => UpperChar(s[i]))
  }

  /** str.lower(), on the ASCII letters. */
  function Lower(s: string): (r: string)
    ensures |r| == |s|
    ensures forall i :: 0 <= i < |s| ==> r[i] == LowerChar(s[i])
  {
    seq(|s|, i requires 0 <= i < |s| => LowerChar(s[i]))
  }

  predicate HasPrefix(s: string, prefix: string)
  {
    |prefix| <= |s| && s[..|prefix|] == prefix
  }

  /** str.endswith(suffix) */
  predicate HasSuffix(s: string, suffix: string)
  {
    |suffix| <= |s| && s[|s| - |suffix|..] == suffix
  }

  /** Python's `a <= b` on strings: lexicographic by code point. */
  predicate LexLe(a: string, b: string)
  {
    a == [] || (b != [] && (a[0] < b[0] || (a[0] == b[0] && LexLe(a[1..], b[1..]))))
  }

  lemma {:induction false} LexLeTotal(a: string, b: string)
    ensures LexLe(a, b) || LexLe(b, a)
  {
    if a != [] && b != [] && a[0] == b[0] {
      LexLeTotal(a[1..], b[1..]);
    }
  }

  lemma {:induction false} LexLeTransitive(a: string, b: string, c: string)
    requires LexLe(a, b) && LexLe(b, c)
    ensures LexLe(a, c)
  {
    if a != [] && b != [] && c != [] && a[0] == b[0] && b[0] == c[0] {
      LexLeTransitive(a[1..], b[1..], c[1..]);
    }
  }

  lemma {:induction false} LexLeAntisymmetric(a: string, b: string)
    requires LexLe(a, b) && LexLe(b, a)
    ensures a == b
  {
    if a != [] && b != [] {
      LexLeAntisymmetric(a[1..], b[1..]);
      assert a == [a[0]] + a[1..] && b == [b[0]] + b[1..];
    }
  }

  function DigitChar(d: nat): (c: char)
    requires d < 10
    ensures '0' <= c <= '9'
  {
    ('0' as int + d) as char
  }

  /** The decimal digits of n, without leading zeros. */
  function NatDigits(n: nat): (r: string)
    ensures 1 <= |r|
    ensures n >= 10 <==> |r| >= 2
    ensures forall i :: 0 <= i < |r| ==> '0' <= r[i] <= '9'
    decreases n
  {
    if n < 10 then [DigitChar(n)] else NatDigits(n / 10) + [DigitChar(n % 10)]
  }

  /** str(n) for a Python int. */
  function DecimalString(n: int): (r: string)
    ensures r != [] && (r[0] == '-' <==> n < 0)
  {
    if n < 0 then "-" + NatDigits(-n) else NatDigits(n)
  }

  lemma {:induction false} NatDigitsInjective(a: nat, b: nat)
    requires NatDigits(a) == NatDigits(b)
    ensures a == b
    decreases a
  {
    if a >= 10 && b >= 10 {
      var da, db := NatDigits(a), NatDigits(b);
      assert da[..|da| - 1] == NatDigits(a / 10);
      assert db[..|db| - 1] == NatDigits(b / 10);
      NatDigitsInjective(a / 10, b / 10);
      assert DigitChar(a % 10) == da[|da| - 1] == db[|db| - 1] == DigitChar(b % 10);
    }
  }

  /** Distinct integers print differently. */
  lemma DecimalStringInjective(a: int, b: int)
    requires DecimalString(a) == DecimalString(b)
    ensures a == b
  {
    if a < 0 {
      assert DecimalString(a)[1..] == NatDigits(-a);
      assert DecimalString(b)[1..] == NatDigits(-b);
      NatDigitsInjective(-a, -b);
    } else {
      NatDigitsInjective(a, b);
    }
  }

  /** str.replace(target, replacement) for single-character arguments. */
  function ReplaceChar(s: string, target: char, replacement: char): (r: string)
    ensures |r| == |s|
    ensures forall i :: 0 <= i < |s| ==> r[i] == (if s[i] == target then replacement else s[i])
    ensures target != replacement ==> target !in r
  {
    if s == [] then [] else [if s[0] == target then replacement else s[0]] + ReplaceChar(s[1..], target, replacement)
  }

  /** str.rfind(c): the last position of c, or -1. */
  function RFind(s: string, c: char): (i: int)
    ensures -1 <= i < |s|
    ensures 0 <= i ==> s[i] == c
    ensures forall j :: i < j < |s| ==> s[j] != c
  {
    if s == [] then -1
    else if s[|s| - 1] == c then |s| - 1
    else RFind(s[..|s| - 1], c)
  }
}

=== FILE: timeline.dfy ===
/**
 * The timeline controller of the scrollytelling page (class RankingTimeline in
 * tennis-scrollytelling/js/scrollytelling.js): how the list of timepoints is
 * acquired, which decade markers the vertical timeline shows and how they are
 * emphasised, what the ranking table and the momentum pie receive, and how scroll
 * and drag events move the current index.
 */
module Timeline {
  import opened Common

  // ---------------------------------------------------------------------------
  // Data model
  // ---------------------------------------------------------------------------

  datatype RankEntry = RankEntry(rank: int, name: string, points: int)

  /** One momentum leader of a period; the chart aggregation reads its titles. */
  datatype Performer = Performer(playerName: string, periodTitles: int)

  /**
   * One dated snapshot. `year` stands for the calendar year that the page derives
   * from `date`; a `rank` list missing from the JSON is the empty list.
   */
  datatype Timepoint = Timepoint(date: string, year: int, rank: seq<RankEntry>,
                                 top: seq<Performer>, totalPeriodTitles: int)

  /** One entry of the legacy weekly rankings file: only a date and an optional list. */
  datatype LegacyWeek = LegacyWeek(date: string, year: int, rankings: Option<seq<RankEntry>>)

  /** The outcome of fetching and parsing one data file. */
  datatype Fetched<T> = Loaded(value: T) | Unavailable

  /** Where the loaded timeline came from. */
  datatype Source = Monthly | Weekly | Legacy | Sample

  datatype Acquired = Acquired(data: seq<Timepoint>, source: Source)

  // ---------------------------------------------------------------------------
  // Data acquisition (loadData, createSampleData)
  // ---------------------------------------------------------------------------

  function NormalizeWeek(w: LegacyWeek): Timepoint
  {
    Timepoint(w.date, w.year, if w.rankings.Some? then w.rankings.value else [], [], 0)
  }

  /** Converts the legacy `{date, rankings}` entries to the timepoint shape. */
  function Normalize(weeks: seq<LegacyWeek>): (r: seq<Timepoint>)
    ensures |r| == |weeks|
    ensures forall i :: 0 <= i < |weeks| ==>
      && r[i].date == weeks[i].date
      && r[i].year == weeks[i].year
      && (weeks[i].rankings.Some? ==> r[i].rank == weeks[i].rankings.value)
      && (weeks[i].rankings.None? ==> r[i].rank == [])
      && r[i].top == []
      && r[i].totalPeriodTitles == 0
  {
    seq(|weeks|, i requires 0 <= i < |weeks| => NormalizeWeek(weeks[i]))
  }

  /** The two built-in timepoints used when every data file is unavailable. */
  function SampleData(): (r: seq<Timepoint>)
    ensures |r| == 2
    ensures r[0].date == "1973-08-27" && r[0].year == 1973 && |r[0].rank| == 5 && r[0].top == []
    ensures r[1].date == "2010-01-04" && r[1].year == 2010 && |r[1].rank| == 5 && |r[1].top| == 3
    ensures r[0].totalPeriodTitles == 0 && r[1].totalPeriodTitles == 28
  {
    [ Timepoint("1973-08-27", 1973,
                [ RankEntry(1, "Ilie Nastase", 0), RankEntry(2, "Manuel Orantes", 0),
                  RankEntry(3, "Stan Smith", 0), RankEntry(4, "Arthur Ashe", 0),
                  RankEntry(5, "Rod Laver", 0) ],
                [], 0),
      Timepoint("2010-01-04", 2010,
                [ RankEntry(1, "Roger Federer", 10550), RankEntry(2, "Rafael Nadal", 9205),
                  RankEntry(3, "Novak Djokovic", 8310), RankEntry(4, "Andy Murray", 7030),
                  RankEntry(5, "Juan Martin del Potro", 6785) ],
                [ Performer("Roger Federer", 8), Performer("Rafael Nadal", 6),
                  Performer("Novak Djokovic", 2) ],
                28) ]
  }

  /**
   * The fallback chain as the page runs it. A monthly file that parses to an empty
   * list falls through, because the log line after it reads `data[0].date` and
   * throws; an empty weekly or legacy list is accepted as it is.
   */
  function LoadDataAsWritten(monthly: Fetched<seq<Timepoint>>, weekly: Fetched<seq<Timepoint>>,
                             legacy: Fetched<seq<LegacyWeek>>): (r: Acquired)
    ensures r.source == Monthly <==> monthly.Loaded? && monthly.value != []
    ensures r.source == Monthly ==> r.data == monthly.value
    ensures r.source == Weekly <==> !(monthly.Loaded? && monthly.value != []) && weekly.Loaded?
    ensures r.source == Weekly ==> r.data == weekly.value
    ensures r.source == Legacy <==> !(monthly.Loaded? && monthly.value != []) && !weekly.Loaded?
                                    && legacy.Loaded?
    ensures r.source == Legacy ==> r.data == Normalize(legacy.value)
    ensures r.source == Sample ==> r.data == SampleData()
  {
    if monthly.Loaded? && monthly.value != [] then Acquired(monthly.value, Monthly)
    else if weekly.Loaded? then Acquired(weekly.value, Weekly)
    else if legacy.Loaded? then Acquired(Normalize(legacy.value), Legacy)
    else Acquired(SampleData(), Sample)
  }

  /** The as-written chain can end with an empty timeline. */
  lemma EmptyWeeklyGivesEmptyTimeline()
    ensures LoadDataAsWritten(Unavailable, Loaded([]), Unavailable).data == []
  {
  }

  predicate Usable<T>(f: Fetched<seq<T>>)
  {
    f.Loaded? && f.value != []
  }

  /**
   * The fallback chain with an empty list treated as a failed stage, as the monthly
   * stage already behaves: monthly, then weekly, then legacy (normalised), then the
   * built-in sample. The timeline is taken wholly from the first usable source.
   */
  function LoadData(monthly: Fetched<seq<Timepoint>>, weekly: Fetched<seq<Timepoint>>,
                    legacy: Fetched<seq<LegacyWeek>>): (r: Acquired)
    ensures |r.data| > 0
    ensures r.source == Monthly <==> Usable(monthly)
    ensures r.source == Weekly <==> !Usable(monthly) && Usable(weekly)
    ensures r.source == Legacy <==> !Usable(monthly) && !Usable(weekly) && Usable(legacy)
    ensures r.source == Monthly ==> r.data == monthly.value
    ensures r.source == Weekly ==> r.data == weekly.value
    ensures r.source == Legacy ==> r.data == Normalize(legacy.value)
    ensures r.source == Sample ==> r.data == SampleData()
  {
    if Usable(monthly) then Acquired(monthly.value, Monthly)
    else if Usable(weekly) then Acquired(weekly.value, Weekly)
    else if Usable(legacy) then Acquired(Normalize(legacy.value), Legacy)
    else Acquired(SampleData(), Sample)
  }

  /** Wherever every loaded file is non-empty, the corrected chain is the page's chain. */
  lemma LoadDataAgreesWhenNonEmpty(monthly: Fetched<seq<Timepoint>>, weekly: Fetched<seq<Timepoint>>,
                                   legacy: Fetched<seq<LegacyWeek>>)
    requires weekly.Loaded? ==> weekly.value != []
    requires legacy.Loaded? ==> legacy.value != []
    ensures LoadDataAsWritten(monthly, weekly, legacy) == LoadData(monthly, weekly, legacy)
  {
  }

  // ---------------------------------------------------------------------------
  // Decade markers (createTimeline)
  // ---------------------------------------------------------------------------

  /** Math.min over the years of the timepoints. */
  function MinYear(data: seq<Timepoint>): (m: int)
    requires |data| > 0
    ensures exists i :: 0 <= i < |data| && data[i].year == m
    ensures forall i :: 0 <= i < |data| ==> m <= data[i].year
  {
    if |data| == 1 then data[0].year
    else
      var rest := MinYear(data[1..]);
      assert forall i :: 1 <= i < |data| ==> data[i] == data[1..][i - 1];
      if data[0].year <= rest then data[0].year else rest
  }

  /** Math.max over the years of the timepoints. */
  function MaxYear(data: seq<Timepoint>): (m: int)
    requires |data| > 0
    ensures exists i :: 0 <= i < |data| && data[i].year == m
    ensures forall i :: 0 <= i < |data| ==> data[i].year <= m
  {
    if |data| == 1 then data[0].year
    else
      var rest := MaxYear(data[1..]);
      assert forall i :: 1 <= i < |data| ==> data[i] == data[1..][i - 1];
      if data[0].year >= rest then data[0].year else rest
  }

  /** Math.ceil(minYear / 10) * 10: the first multiple of ten not below minYear. */
  function FirstDecade(minYear: int): (d: int)
    ensures d % 10 == 0
    ensures minYear <= d < minYear + 10
  {
    ((minYear + 9) / 10) * 10
  }

  /** The loop that pushes one marker per decade from the first decade to maxYear. */
  method DecadeMarkers(minYear: int, maxYear: int) returns (years: seq<int>)
    ensures forall k :: 0 <= k < |years| ==> years[k] == FirstDecade(minYear) + 10 * k
    ensures forall y :: y in years <==> minYear <= y <= maxYear && y % 10 == 0
  {
    years := [];
    var first := FirstDecade(minYear);
    var year := first;
    while year <= maxYear
      invariant year == first + 10 * |years|
      invariant forall k :: 0 <= k < |years| ==> years[k] == first + 10 * k
      invariant forall y :: y in years <==> minYear <= y < year && y <= maxYear && y % 10 == 0
      decreases maxYear - year
    {
      forall y | minYear <= y < year + 10 && y % 10 == 0
        ensures y in years + [year]
      {
        if y < year {
          var k := (y - first) / 10;
          assert years[k] == y;
        }
      }
      years := years + [year];
      year := year + 10;
    }
  }

  /** The marker years the timeline shows for a loaded timeline. */
  method TimelineYears(data: seq<Timepoint>) returns (years: seq<int>)
    requires |data| > 0
    ensures forall y :: y in years <==> MinYear(data) <= y <= MaxYear(data) && y % 10 == 0
    ensures forall i, j :: 0 <= i < j < |years| ==> years[i] + 10 * (j - i) == years[j]
  {
    years := DecadeMarkers(MinYear(data), MaxYear(data));
  }

  // ---------------------------------------------------------------------------
  // Marker emphasis (updateTimeline)
  // ---------------------------------------------------------------------------

  datatype MarkerStyle = MarkerStyle(active: bool, width: int)

  /**
   * A marker is active when its year is not after the current year; an active
   * marker grows by two pixels per year behind the current year, up to twenty.
   */
  function MarkerEmphasis(markerYear: int, currentYear: int): (s: MarkerStyle)
    ensures s.active <==> markerYear <= currentYear
    ensures 30 <= s.width <= 50
    ensures !s.active ==> s.width == 30
    ensures s.active && currentYear - markerYear >= 10 ==> s.width == 50
    ensures s.active && currentYear - markerYear < 10 ==> s.width == 30 + 2 * (currentYear - markerYear)
  {
    if markerYear <= currentYear then MarkerStyle(true, 30 + Min(20, 2 * (currentYear - markerYear)))
    else MarkerStyle(false, 30)
  }

  function Emphasis(markers: seq<int>, currentYear: int): (r: seq<MarkerStyle>)
    ensures |r| == |markers|
  {
    seq(|markers|, i requires 0 <= i < |markers| => MarkerEmphasis(markers[i], currentYear))
  }

  /**
   * Along ascending markers the active ones form a prefix and the widths never
   * grow: the emphasis decays from the oldest marker towards the current year.
   */
  lemma EmphasisDecays(markers: seq<int>, currentYear: int)
    requires forall i, j :: 0 <= i < j < |markers| ==> markers[i] < markers[j]
    ensures forall i, j :: 0 <= i < j < |markers| ==>
      && (Emphasis(markers, currentYear)[j].active ==> Emphasis(markers, currentYear)[i].active)
      && Emphasis(markers, currentYear)[j].width <= Emphasis(markers, currentYear)[i].width
  {
  }

  // ---------------------------------------------------------------------------
  // What the ranking table and the momentum pie receive
  // ---------------------------------------------------------------------------

  /** The rows of the ranking table: `rank.slice(0, 10)`. */
  function TopRankings(tp: Timepoint): (r: seq<RankEntry>)
    ensures |r| == Min(10, |tp.rank|)
    ensures r == tp.rank[..|r|]
  {
    if |tp.rank| <= 10 then tp.rank else tp.rank[..10]
  }

  /** The reduce over `period_titles`, left to right. */
  function SumTitles(ps: seq<Performer>): int
  {
    if ps == [] then 0 else SumTitles(ps[..|ps| - 1]) + ps[|ps| - 1].periodTitles
  }

  lemma {:induction false} SumTitlesAppend(a: seq<Performer>, b: seq<Performer>)
    ensures SumTitles(a + b) == SumTitles(a) + SumTitles(b)
    decreases |b|
  {
    if b == [] {
      assert a + b == a;
    } else {
      var b' := b[..|b| - 1];
      assert (a + b)[..|a + b| - 1] == a + b';
      SumTitlesAppend(a, b');
    }
  }

  lemma {:induction false} SumTitlesSign(ps: seq<Performer>)
    requires forall i :: 0 <= i < |ps| ==> ps[i].periodTitles >= 0
    ensures SumTitles(ps) >= 0
    ensures SumTitles(ps) == 0 <==> forall i :: 0 <= i < |ps| ==> ps[i].periodTitles == 0
  {
    if ps != [] {
      var init := ps[..|ps| - 1];
      assert forall i :: 0 <= i < |init| ==> init[i] == ps[i];
      SumTitlesSign(init);
    }
  }

  const OthersName: string := "Others"

  /**
   * The slices of the pie: a list of at most eight leaders as it is; a longer list
   * keeps its first seven and adds one "Others" entry carrying the titles of the
   * rest, when those add up to more than zero.
   */
  function PieData(top: seq<Performer>): (r: seq<Performer>)
    ensures |r| <= 8
    ensures |top| <= 8 ==> r == top
    ensures |top| > 8 ==> |r| >= 7 && r[..7] == top[..7]
    ensures |top| > 8 ==> (|r| == 8 <==> SumTitles(top[7..]) > 0)
    ensures |top| > 8 && |r| == 8 ==> r[7] == Performer(OthersName, SumTitles(top[7..]))
  {
    if |top| <= 8 then top
    else
      var others := SumTitles(top[7..]);
      if others > 0 then top[..7] + [Performer(OthersName, others)] else top[..7]
  }

  /** With non-negative title counts the pie carries the same number of titles. */
  lemma PieDataKeepsTitles(top: seq<Performer>)
    requires forall i :: 0 <= i < |top| ==> top[i].periodTitles >= 0
    ensures SumTitles(PieData(top)) == SumTitles(top)
  {
    if |top| > 8 {
      var head, rest := top[..7], top[7..];
      assert top == head + rest;
      SumTitlesAppend(head, rest);
      assert forall i :: 0 <= i < |rest| ==> rest[i] == top[i + 7];
      SumTitlesSign(rest);
      var others := SumTitles(rest);
      if others > 0 {
        SumTitlesAppend(head, [Performer(OthersName, others)]);
        assert SumTitles([Performer(OthersName, others)]) == others by {
          assert [Performer(OthersName, others)][..0] == [];
        }
      }
    }
  }

  /** More than eight leaders, each with a title, give seven named slices and "Others". */
  lemma PieDataGroupsOthers(top: seq<Performer>)
    requires |top| > 8
    requires forall i :: 0 <= i < |top| ==> top[i].periodTitles > 0
    ensures |PieData(top)| == 8 && PieData(top)[7].playerName == OthersName
  {
    var rest := top[7..];
    assert forall i :: 0 <= i < |rest| ==> rest[i] == top[i + 7];
    SumTitlesSign(rest);
    assert rest[0].periodTitles != 0;
  }

  // ---------------------------------------------------------------------------
  // Drag mapping (the mousemove handler)
  // ---------------------------------------------------------------------------

  /** Math.max(lo, Math.min(hi, p)). */
  function Clamp(p: int, lo: int, hi: int): (r: int)
    requires lo <= hi
    ensures lo <= r <= hi
    ensures lo <= p <= hi ==> r == p
    ensures p < lo ==> r == lo
    ensures p > hi ==> r == hi
  {
    Max(lo, Min(hi, p))
  }

  /** Math.round(num / den) for num >= 0: the nearest integer, halves rounded up. */
  function RoundHalfUp(num: nat, den: nat): (r: nat)
    requires den > 0
    ensures 2 * den * r <= 2 * num + den < 2 * den * r + 2 * den
  {
    (2 * num + den) / (2 * den)
  }

  lemma MulMonotone(a: int, b: int, h: nat)
    requires a <= b
    ensures a * h <= b * h
  {
  }

  lemma CancelLt(a: int, b: int, k: nat)
    requires k > 0 && k * a < k * b
    ensures a < b
  {
  }

  lemma {:induction false} RoundedIndexInRange(top: nat, height: nat, n: nat)
    requires 0 < height && top <= height && 0 < n
    ensures RoundHalfUp(top * (n - 1), height) < n
    ensures top == height ==> RoundHalfUp(top * (n - 1), height) == n - 1
  {
    var m := n - 1;
    var h2 := 2 * height;
    var num := top * m;
    MulMonotone(top, height, m);
    var r := RoundHalfUp(num, height);
    assert h2 * r <= 2 * num + height < h2 * r + h2;
    assert h2 * (m + 1) == 2 * (height * m) + h2;
    CancelLt(r, m + 1, h2);
    if top == height {
      assert h2 * (r + 1) == h2 * r + h2;
      assert h2 * m == 2 * num;
      CancelLt(m, r + 1, h2);
    }
  }

  /**
   * The index a drag to offset p selects in a container of height H over n
   * timepoints: round(clamp(p, 0, H) / H * (n - 1)).
   */
  function DragIndex(p: int, height: nat, n: nat): (r: nat)
    requires height > 0 && n > 0
    ensures r < n
    ensures p <= 0 ==> r == 0
    ensures p >= height ==> r == n - 1
  {
    var top := Clamp(p, 0, height);
    RoundedIndexInRange(top, height, n);
    RoundHalfUp(top * (n - 1), height)
  }

  lemma RoundHalfUpMonotone(a: nat, b: nat, den: nat)
    requires den > 0 && a <= b
    ensures RoundHalfUp(a, den) <= RoundHalfUp(b, den)
  {
    var r1, r2 := RoundHalfUp(a, den), RoundHalfUp(b, den);
    if r1 > r2 {
      MulMonotone(r2 + 1, r1, 2 * den);
      assert false;
    }
  }

  /** A lower drag position never selects a later timepoint. */
  lemma DragIndexMonotone(p1: int, p2: int, height: nat, n: nat)
    requires height > 0 && n > 0 && p1 <= p2
    ensures DragIndex(p1, height, n) <= DragIndex(p2, height, n)
  {
    var t1, t2 := Clamp(p1, 0, height), Clamp(p2, 0, height);
    MulMonotone(t1, t2, n - 1);
    RoundHalfUpMonotone(t1 * (n - 1), t2 * (n - 1), height);
  }

  /** Half of a 100-pixel timeline over 100 timepoints selects index 50 (round(49.5)). */
  lemma DragIndexHalfway()
    ensures DragIndex(50, 100, 100) == 50
  {
  }

  /** The index a move selects; a zero-height container computes NaN and selects none. */
  function DragTarget(p: int, height: nat, n: nat): Option<nat>
    requires n > 0
  {
    if height == 0 then None else Some(DragIndex(p, height, n))
  }

  // ---------------------------------------------------------------------------
  // The controller
  // ---------------------------------------------------------------------------

  /** What the handlers ask the page to draw or do, in order. */
  datatype Effect =
    | RenderTables(index: nat)       // renderTables(): ranking table and momentum pie
    | UpdateTimeline(index: nat)     // updateTimeline(): marker emphasis and progress
    | ShowYear(index: nat)           // updateYearIndicatorText()
    | ScrollTo(index: nat)           // scrollIntoView of the section of that index
    | MoveIndicator(top: int)        // the drag indicator follows the pointer; a container of
                                     // height 0 gives the top "NaN%", which the page ignores

  /** What the page shows for the current index. */
  datatype View = View(rows: seq<RankEntry>, slices: seq<Performer>, markerStyles: seq<MarkerStyle>)

  class RankingTimeline {
    const data: seq<Timepoint>
    const markers: seq<int>
    var currentIndex: nat
    var isDragging: bool
    /** Everything the handlers have drawn so far. */
    ghost var effects: seq<Effect>

    ghost predicate Valid()
      reads this
    {
      && |data| > 0
      && currentIndex < |data|
      && (forall y :: y in markers <==> MinYear(data) <= y <= MaxYear(data) && y % 10 == 0)
      && (forall i, j :: 0 <= i < j < |markers| ==> markers[i] < markers[j])
    }

    /**
     * Page start-up: the fallback chain, the scroll sections and markers, and one
     * render of the first timepoint.
     */
    constructor (monthly: Fetched<seq<Timepoint>>, weekly: Fetched<seq<Timepoint>>,
                 legacy: Fetched<seq<LegacyWeek>>)
      ensures Valid()
      ensures data == LoadData(monthly, weekly, legacy).data
      ensures currentIndex == 0 && !isDragging
      ensures effects == [RenderTables(0)]
    {
      var loaded := LoadData(monthly, weekly, legacy).data;
      var years := TimelineYears(loaded);
      data := loaded;
      markers := years;
      currentIndex := 0;
      isDragging := false;
      effects := [RenderTables(0)];
    }

    function CurrentView(): (v: View)
      reads this
      requires Valid()
      ensures |v.rows| <= 10 && |v.slices| <= 8 && |v.markerStyles| == |markers|
      ensures |v.rows| == Min(10, |data[currentIndex].rank|) && v.rows == data[currentIndex].rank[..|v.rows|]
      ensures |data[currentIndex].top| <= 8 ==> v.slices == data[currentIndex].top
      ensures |data[currentIndex].top| > 8 ==> |v.slices| >= 7 && v.slices[..7] == data[currentIndex].top[..7]
      ensures forall k :: 0 <= k < |markers| ==> v.markerStyles[k] == MarkerEmphasis(markers[k], data[currentIndex].year)
    {
      var tp := data[currentIndex];
      View(TopRankings(tp), PieData(tp.top), Emphasis(markers, tp.year))
    }

    /**
     * The scroll step handler: the section tagged `tag` became active. Only a tag
     * different from the current index changes the state and draws.
     */
    method ScrollEnter(tag: nat)
      requires Valid() && tag < |data|
      modifies this
      ensures Valid()
      ensures currentIndex == tag && isDragging == old(isDragging)
      ensures tag == old(currentIndex) ==> effects == old(effects)
      ensures tag != old(currentIndex) ==> effects == old(effects) + [RenderTables(tag), UpdateTimeline(tag)]
    {
      if tag != currentIndex {
        currentIndex := tag;
        effects := effects + [RenderTables(tag), UpdateTimeline(tag)];
      }
    }

    /** mousedown / touchstart on the year indicator. */
    method MouseDown()
      requires Valid()
      modifies this
      ensures Valid()
      ensures isDragging
      ensures currentIndex == old(currentIndex) && effects == old(effects)
    {
      isDragging := true;
    }

    /**
     * mousemove / touchmove at offset p from the top of a container of the given
     * height. Nothing happens unless a drag is in progress; during a drag the
     * indicator follows the clamped offset (when the container has a height) and a
     * different in-range index is selected and drawn.
     */
    method MouseMove(p: int, height: nat)
      requires Valid()
      modifies this
      ensures Valid()
      ensures isDragging == old(isDragging)
      ensures !old(isDragging) ==> currentIndex == old(currentIndex) && effects == old(effects)
      ensures old(isDragging) ==>
        var target := DragTarget(p, height, |data|);
        var moved := old(effects) + if height > 0 then [MoveIndicator(Clamp(p, 0, height))] else [];
        if target.Some? && target.value != old(currentIndex) then
          currentIndex == target.value && effects == moved + [RenderTables(target.value), ShowYear(target.value), ScrollTo(target.value)]
        else
          currentIndex == old(currentIndex) && effects == moved
    {
      if !isDragging {
        return;
      }
      if height > 0 {
        effects := effects + [MoveIndicator(Clamp(p, 0, height))];
      }
      var target := DragTarget(p, height, |data|);
      if target.Some? && target.value != currentIndex && target.value < |data| {
        var k := target.value;
        currentIndex := k;
        effects := effects + [RenderTables(k), ShowYear(k), ScrollTo(k)];
      }
    }

    /** mouseup / touchend: ends a drag and redraws the timeline once. */
    method MouseUp()
      requires Valid()
      modifies this
      ensures Valid()
      ensures !isDragging && currentIndex == old(currentIndex)
      ensures old(isDragging) ==> effects == old(effects) + [UpdateTimeline(currentIndex)]
      ensures !old(isDragging) ==> effects == old(effects)
    {
      if isDragging {
        isDragging := false;
        effects := effects + [UpdateTimeline(currentIndex)];
      }
    }
  }

  /**
   * A drag followed by the scroll event its own scrollIntoView triggers: the
   * scroll handler sees the index already selected and draws nothing more.
   */
  method DragThenScroll(t: RankingTimeline, p: int, height: nat)
    requires t.Valid() && t.isDragging
    modifies t
    ensures t.Valid()
    ensures height > 0 ==> t.currentIndex == DragIndex(p, height, |t.data|)
    ensures |t.effects| <= |old(t.effects)| + 4
    ensures var target := DragTarget(p, height, |t.data|);
            var moved := old(t.effects) + if height > 0 then [MoveIndicator(Clamp(p, 0, height))] else [];
            if target.Some? && target.value != old(t.currentIndex) then
              t.effects == moved + [RenderTables(target.value), ShowYear(target.value), ScrollTo(target.value)]
            else
              t.effects == moved
  {
    t.MouseMove(p, height);
    ghost var drawn := t.effects;
    t.ScrollEnter(t.currentIndex);
    assert t.effects == drawn;
  }
}
